=== FILE: README.md ===
# RRG-Lite core in Dafny

RRG-Lite draws a Relative Rotation Graph. Each symbol of a watchlist is placed by its RS-ratio (x) and RS-momentum (y) against a benchmark. Its last `tail_count` points form a tail. The chart is split at 100/100 into the Leading, Weakening, Improving and Lagging quadrants. A set of keyboard and mouse handlers lets the user highlight tails and step through their dates.

This project models the `RRG` class of `src/RRG.py` and proves properties of the model:

- `settings.dfy` (module `Settings`): the constructor's arithmetic. It covers benchmark selection, the tail clamp, the WINDOW/PERIOD defaults and the minimum data length.
- `series.dfy` (module `Series`): `_process_ser`, which drops repeated dates (keeping the first) and sorts by date.
- `quadrant.dfy` (module `Quadrant`): `_get_color` and the rules for showing quadrant labels.
- `tickers.dfy` (module `Tickers`): one watchlist entry. It covers `TICKER,Short` parsing, the momentum base (`at[BASE_DATE]` or `iloc[-PERIOD]`) and tail slicing into head marker, tail markers, line path and date labels.
- `chart.dfy` (module `Chart`): `plot`. It covers the benchmark checks, the watchlist loop with its skip and abort rules, the axis-extreme fold, the padded limits and the quadrant labels.
- `interaction.dfy` (module `Interaction`): the interaction state machine as pure functions on an immutable `Session`. It covers Delete, A, T, H, the arrow keys, head-marker picks and the `key_handler` dispatch.
- `interaction_proofs.dfy` (module `InteractionProofs`): the invariant `Valid` of every reachable session, and its preservation by every event.
- `arrow_proofs.dfy` (module `ArrowProofs`): arrow-key cycling after a pick.
- `wrappers.dfy` (module `Wrappers`): `Option` and `Result`.

An alpha is an exact `real`: 0, 0.5 (`LineAlpha`), 0.6 (`TextAlpha`) or 1. Python's `a == d or d` evaluates to `True`, which is alpha 1. Entries of a session are numbered in plotting order. Each entry holds one date label per tail point. Dates are day ordinals. Every exception the modelled code raises is a `Failure` of the `Settings.Error` type, except the `KeyError` of `rsm.loc` at `src/RRG.py:242` (see "## Left out").

### Behaviour worth knowing

These facts about `src/RRG.py` follow from its code, and the model reproduces them:

- Delete (`_clear_all`) resets only entries whose line alpha is non-zero. A label forced by a pick survives when T has hidden that entry's line. Delete resets the highlight count and `tabbable` only if some date label was showing. It never resets `tabindex`.
  - Because of this, the highlight count can become negative (`InteractionProofs.HighlightCountGoesNegative`).
- A momentum-base failure is not caught in `plot`. Both cases abort the whole plot rather than skipping the symbol:
  - BASE_DATE is missing from the ratio series;
  - `iloc[-PERIOD]` is out of range.

  Because the base is computed before the length check, a symbol whose ratio series is shorter than PERIOD aborts the plot when BASE_DATE is unset, rather than being skipped (`Tickers.ShortRatioAbortsWithoutBaseDate`). With WINDOW 14 and PERIOD 52 the momentum series is 13 values shorter than the ratio series, so for a tail of at most 39 points every symbol too short for the tail aborts this way.
- An entry with two commas (`A,B,C`) fails tuple unpacking and aborts the plot. `A,` names symbol `A` with an empty display name.
- With default settings the minimum data length is 14·2 + 52 + 4 = 84 (`src/RRG.py:60-65`).
- The quadrant labels compare strictly against 100, while `_get_color` puts 100 on the low side. So a head at exactly 100 can be coloured for a quadrant whose label is not shown.
- The benchmark length test counts rows before repeated dates are dropped.

## Model

| member | source | states |
|---|---|---|
| Settings.SelectBenchmark | src/RRG.py:30-39 | The `-b` argument wins over `BENCHMARK`. Empty strings count as unset. With neither set, construction fails. |
| Settings.ClampTail | src/RRG.py:41-42 | The tail is at least 2 and at least the requested count, and equals one of the two. |
| Settings.MinimumDataLength | src/RRG.py:60-65 | The length minus tail and two windows covers both the window and the period, and equals the larger. |
| Settings.MakeSettings | src/RRG.py:18-65 | Construction succeeds iff a benchmark is set. Tail, window (default 14), period (default 52), base date and minimum length come from the configuration as stated. |
| Settings.DefaultMinimumLength | src/RRG.py:44-65 | With defaults and a tail of 4, the loader is asked for 84 observations. |
| Series.KeepFirst | src/RRG.py:326-327 | The result has unique dates and the same date set. Every point is the first occurrence of its date, and any two kept points appear in the input in the same order. A series without repeats is unchanged. |
| Series.Insert | src/RRG.py:329-330 | Inserting into an ascending series keeps it strictly ascending and adds exactly the point. |
| Series.SortByDate | src/RRG.py:329-330 | Sorting a series with unique dates gives a strictly ascending permutation of it. |
| Series.ProcessSeries | src/RRG.py:321-332 | The result is strictly ascending, has the input's dates, and carries each date's first-occurring value. Already ascending input is unchanged. |
| Series.ProcessSeriesIdempotent | src/RRG.py:321-332 | Cleaning twice equals cleaning once. |
| Series.ProcessSeriesContractIsComplete | src/RRG.py:321-332 | Any two series meeting the cleaning contract for the same input are equal, so the contract fixes the result. |
| Quadrant.GetColor | src/RRG.py:350-354 | Each of the four colours is returned exactly in its quadrant. 100 belongs to the lower/left side. |
| Quadrant.SameColorIffSameQuadrant | src/RRG.py:350-354 | Two points share a colour iff they share a quadrant. |
| Quadrant.QuadrantLabels | src/RRG.py:264-298 | Each label is shown iff its strict extreme conditions hold, and no other label appears. |
| Quadrant.OccupiedQuadrantIsLabelled | src/RRG.py:264-298 | A point strictly inside a quadrant and within the extremes makes that quadrant's label appear. |
| Quadrant.BoundaryHeadIsNotLabelled | src/RRG.py:264-298 | A lone head at (101, 100) is coloured Weakening, yet no label is shown. |
| Tickers.ParseEntry | src/RRG.py:150-154 | Parsing fails iff the entry has two or more commas. Without a comma the symbol names itself. Otherwise the two comma-free parts rejoin to the input. |
| Tickers.ParseEntryRoundTrip | src/RRG.py:150-154 | Joining a comma-free symbol and name with a comma, then parsing, returns both. |
| Tickers.ThreeFieldsAreRejected | src/RRG.py:150-151 | Any entry with two commas is rejected. |
| Tickers.ValueOn | src/RRG.py:380-381 | A date lookup finds nothing iff the date is absent; otherwise it returns a value recorded on that date. |
| Tickers.PythonIndex | src/RRG.py:382-383 | Python `iloc` positions: non-negative ones from the front, negative ones from the end, anything else out of range. |
| Tickers.MomentumBase | src/RRG.py:380-383 | With BASE_DATE, it fails iff the date is absent, else returns a value on that date. Without it, `iloc[-PERIOD]` fails iff out of range; 1 ≤ PERIOD ≤ n gives the PERIOD-th value from the end. |
| Tickers.BaseDateSelectsItsValue | src/RRG.py:380-381 | On a series without repeated dates, BASE_DATE selects exactly the value on that date. |
| Tickers.ShortRatioAbortsWithoutBaseDate | src/RRG.py:382-383 | Without BASE_DATE, a ratio series shorter than PERIOD yields the out-of-range error. |
| Tickers.LinePath | src/RRG.py:220-235 | The spline path is used iff scipy is present and the tail has more than two points. Either way it goes through the tail points. |
| Tickers.TailPoints | src/RRG.py:171-172 | The `tail` points pair the last `tail` ratio values with the last `tail` momentum values, in order. The last point is the newest pair. |
| Tickers.MakeEntry | src/RRG.py:171-251 | The head is the last ratio/momentum pair and the tail markers are the `tail - 1` pairs before it. The colour is the head's quadrant. There is one date label per tail point at that point, bold iff its date is the newest. |
| Tickers.OnlyHeadDateIsBold | src/RRG.py:237-249 | On an ascending ratio series, exactly the head's date label is bold. |
| Tickers.DateLabels | src/RRG.py:237-249 | One label per tail point, at that point and carrying its date. A label is bold iff its date is the newest date of the series. |
| Tickers.OnlyLastLabelIsBold | src/RRG.py:237-249 | On an ascending ratio series only the last label is bold. |
| Chart.Measure | src/RRG.py:161-165 | Momentum is computed from the cleaned closes and fails exactly when its base fails. |
| Chart.PlotTicker | src/RRG.py:147-169 | One loop pass, in order: a parse failure aborts; no data (`Chart.HasData`, lines 156-159) skips; a base failure aborts; a short series skips; otherwise the entry is built from the last `tail` values. |
| Chart.PlotTickerOutcome | src/RRG.py:146-251 | Only a malformed entry or a failed base aborts. A plotted entry has its position, parsed names, `tail - 1` markers, `tail` date labels and its head's colour. |
| Chart.Collect | src/RRG.py:146-251 | The loop succeeds iff every pass succeeds, or returns the first failure. Entries keep watchlist order and every non-skipped position appears. |
| Chart.PlotTickers | src/RRG.py:146-251 | The same characterisation, stated over the watchlist entries. |
| Chart.Include | src/RRG.py:176-187 | After one point the point lies within the extremes. They only grow, and each is its old value or the point's coordinate. |
| Chart.Widen | src/RRG.py:177-187 | Every folded point lies within the extremes. The extremes only grow, and each is its start value or some point's coordinate. |
| Chart.AllPoints | src/RRG.py:171-187 | The points folded into the extremes are exactly the plotted tails' points. |
| Chart.Limits | src/RRG.py:260-261 | The lower limit is the minimum minus 0.3 and the upper limit the maximum plus 0.3, so both lie strictly outside the extremes. |
| Chart.Frame | src/RRG.py:176-298 | The extremes are the fold over all tail points. Each axis's limits are its extremes padded by 0.3 (`Chart.Limits`). Every tail point lies within the extremes and strictly inside both limits. The labels are those the extremes allow. |
| Chart.BuildChart | src/RRG.py:108-298 | An absent or empty benchmark fails. One shorter than the minimum length fails. Otherwise the chart is built iff every symbol passes. The axis limits are then the folded extremes padded by 0.3 (`Chart.Limits`), every tail point lies strictly inside them, and the labels are chosen from the extremes. |
| Chart.ExtremesAreAttainedOrStart | src/RRG.py:143-187 | Each extreme is either its start (max 0, min 200) or the coordinate of a plotted tail point. |
| Chart.ShortBenchmarkStopsThePlot | src/RRG.py:113-119 | With default settings, a 50-row benchmark fails as too short. |
| Chart.EmptySeriesIsSkipped | src/RRG.py:156-159 | A symbol the loader returns no rows for is skipped. |
| Chart.TrailingCommaGivesEmptyName | src/RRG.py:150-154 | `SPY,` names symbol SPY with an empty display name. |
| Chart.ChartStartsSession | src/RRG.py:239-258 | A built chart starts a valid session with one entry per plotted symbol, each with one date slot per label, none visible. |
| Interaction.HideDates | src/RRG.py:513-518 | Exactly the listed date labels are hidden; nothing else changes. |
| Interaction.ClearActiveDateLabels | src/RRG.py:513-518 | The recorded date labels are hidden and the record emptied. Lines, markers, labels and globals are unchanged. |
| Interaction.ClearEntry | src/RRG.py:398-405 | The line ends hidden and the date labels are untouched. A visible line also hides its markers and returns its label to the text state. An entry whose line was hidden is unchanged. |
| Interaction.ClearAll | src/RRG.py:392-414 | Entries with a non-zero line get line and markers hidden and the label at the text state; others keep theirs. Recorded dates are hidden. Count and `tabbable` reset iff dates were shown. The cursor is kept. |
| Interaction.ToggleText | src/RRG.py:416-432 | The text state flips between 0 and 0.6. Every label not forced to 1 takes the new state. Nothing else changes. |
| Interaction.ToggleLines | src/RRG.py:434-453 | The line state flips between 0 and 0.5. Every line not forced to 1 takes the new state. Nothing else changes. |
| Interaction.ToggleHelp | src/RRG.py:455-476 | The help overlay flips. Nothing else changes. |
| Interaction.Pick | src/RRG.py:520-569 | The cursor resets and recorded dates are hidden. Markers flip, with count ±1 and `tabbable` rules. Line and label follow the `a == d or d` / `a == 0 or 0` rules. Other entries are unchanged. |
| Interaction.ClearIfActive | src/RRG.py:537-538 | With or without recorded labels, the result hides exactly the recorded labels and empties the record. Nothing else changes. |
| Interaction.PickAlpha | src/RRG.py:553-567 | The new alpha of a picked line or label is always 1, the channel's default, or 0. |
| InteractionProofs.PickAlphaTwice | src/RRG.py:553-567 | For an alpha a handler can give (the channel's global alpha or 1), picking twice restores it. |
| Interaction.PickedEntry | src/RRG.py:540-567 | Markers flip between 0 and 1. With lines on, the line goes to 1 if it was at 0.5 and to 0.5 otherwise; with lines off, to 1 if hidden and to 0 otherwise. The label follows the same rule with 0.6. Date labels are untouched. |
| Interaction.Reveal | src/RRG.py:505-509 | Date label `j` of entry `i` goes to alpha 1 and is appended to the record. Every other date label, every line, marker and label, the globals and the cursor keep their values. |
| Interaction.CycleEntry | src/RRG.py:488-509 | One pass over an entry leaves lines, markers, labels and globals alone. |
| Interaction.CycleOver | src/RRG.py:488-509 | The loop over entries leaves lines, markers, labels and globals alone. |
| Interaction.CycleDates | src/RRG.py:478-511 | When not tabbable an arrow does nothing. It never changes lines, markers, labels or globals. |
| Interaction.KeyCommand | src/RRG.py:92-99 | A key is bound iff it is one of delete, a, t, h, left, right. Delete maps to `_clear_all`, a to `_toggle_text`, t to `_toggle_lines`, h to `_toggle_help`, and left and right to `_cycle_dates` with that key. |
| Interaction.OnKeyPress | src/RRG.py:571-578 | Delete runs `ClearAll`, a `ToggleText`, t `ToggleLines`, h `ToggleHelp`, and left or right `CycleDates` with that key (dispatched through `Interaction.Apply`). An unbound key leaves the session unchanged. |
| Interaction.Step | src/RRG.py:486 | The cursor step is -1 or 1, and it is -1 iff the key is left. |
| Interaction.Initial | src/RRG.py:49-54 | The state after `plot` is well-formed, with one entry per plotted symbol. |
| InteractionProofs.InitialIsBlank | src/RRG.py:52-106 | Right after `plot`, both toggles are off. Every line, marker, label and date label is at 0. Nothing is recorded, the count and cursor are 0, nothing is tabbable and no help overlay is shown. |
| InteractionProofs.InitialIsValid | src/RRG.py:101-106 | The initial session satisfies the invariant and shows no date label. |
| InteractionProofs.ClearAllHidesDates | src/RRG.py:392-414 | Delete keeps the invariant, hides every date label and every line. |
| InteractionProofs.ClearAllIdempotent | src/RRG.py:392-414 | Delete twice equals Delete once. |
| InteractionProofs.ToggleTextValid | src/RRG.py:416-432 | A keeps the invariant. |
| InteractionProofs.ToggleLinesValid | src/RRG.py:434-453 | T keeps the invariant. |
| InteractionProofs.ToggleTextTwice | src/RRG.py:416-432 | A pressed twice restores the session exactly. |
| InteractionProofs.ToggleLinesTwice | src/RRG.py:434-453 | T pressed twice restores the session when every line is at the state or forced. |
| InteractionProofs.ClearedLineNotRestoredByToggleTwice | src/RRG.py:392-453 | A line hidden by Delete while lines are on is still at 0 after one T and is back at 0.5 only after a second T. |
| InteractionProofs.PickValid | src/RRG.py:520-569 | A pick keeps the invariant and leaves no date label visible. |
| InteractionProofs.PickTwice | src/RRG.py:520-569 | Picking twice restores the entry's artists and the count when its line was at the state or forced. |
| InteractionProofs.PickTwiceOnClearedLine | src/RRG.py:552-558 | A line hidden by Delete goes to 0.5 on one pick and to 1 on the next. |
| InteractionProofs.CycleDatesEffect | src/RRG.py:478-511 | First arrow: the cursor stays and the cursor's label of every forced line shows. Later arrows: the cursor moves ±1 modulo the tail and exactly the new labels show. The invariant is kept. |
| InteractionProofs.CycleOverRecords | src/RRG.py:488-509 | After the loop passes a forced line, some date label is recorded. |
| InteractionProofs.CycleOverInv | src/RRG.py:488-509 | After the first `k` entries the loop has done one of two things. With nothing recorded, the cursor stays and the cursor's label of every forced entry among them shows. Otherwise the loop waits until the first forced entry, then moves the cursor one step and shows the new label from there on. |
| InteractionProofs.FirstForcedMoves | src/RRG.py:500-509 | At the first forced entry, whose label is showing, every recorded label is hidden, the cursor moves one step and only the new label shows. |
| InteractionProofs.CycleEntryNothingRecorded | src/RRG.py:494-498 | With nothing recorded, a forced entry's label at the cursor is hidden, so it is shown and recorded without moving the cursor. |
| InteractionProofs.OnEventValid | src/RRG.py:571-578 | Every key press or pick keeps the invariant. `Interaction.OnEvent` dispatches a key press to `OnKeyPress` and a pick to `Pick`. |
| InteractionProofs.RunValid | src/RRG.py:571-578 | Any event sequence from a valid session stays valid. `Interaction.Run` handles the events one at a time, each to completion. |
| InteractionProofs.ClearAllAfterAnyEvents | src/RRG.py:392-414 | After any history, Delete leaves no date label and no line visible. |
| InteractionProofs.ClearAllKeepsCountWithoutDates | src/RRG.py:407-411 | After a pick alone, Delete keeps the count at 1 and arrows live. |
| InteractionProofs.ClearAllSkipsHiddenLine | src/RRG.py:398-405 | A label forced by a pick survives Delete once T has hidden the line. |
| InteractionProofs.HighlightCountGoesNegative | src/RRG.py:407-411 | T, Delete, pick 0, T, pick 1, →, Delete, pick 0 leaves the count at −1. |
| ArrowProofs.AdvanceClosedForm | src/RRG.py:504 | `m` single steps modulo `n` land where one step of `m·step` does. |
| ArrowProofs.ArrowStep | src/RRG.py:486-509 | With one forced line showing the cursor's label, an arrow moves the cursor one step and shows only the new label. |
| ArrowProofs.RunRepeatIsPresses | src/RRG.py:571-578 | Dispatching `m` presses of an arrow key runs `_cycle_dates` `m` times. |
| ArrowProofs.ArrowsMoveOneStep | src/RRG.py:486-509 | Repeated presses of one arrow advance the cursor one step each and keep one label showing. |
| ArrowProofs.ArrowsAfterPick | src/RRG.py:483-509 | After a pick forces one line, `m` presses show exactly one date label, at `m - 1` steps from 0, which is index `(m - 1)·step` modulo the tail length. |
| ArrowProofs.FourPointTailCycles | src/RRG.py:483-509 | With a four-point tail, right shows dates 0,1,2,3,0 and left shows 0,3,2,1,0. |

## Left out

- The rolling RS-ratio and RS-momentum (`_calculate_rs`, the rolling part of `_calculate_momentum`) are floating-point statistics. They are the parameters `Chart.Analytics.ratio` and `Chart.Analytics.momentum`. Only the choice and failure of the momentum base is modelled.
- Tickers.MakeEntry: ratio and momentum values are paired by position, as the `iloc` slices at `src/RRG.py:171-172` and `190-226` do. The date labels at `src/RRG.py:238-250` instead look up `rsm.loc[idx]` by date. `dropna()` at `src/RRG.py:390` can drop a momentum value whose date is among the last `tail` ratio dates, at the end of the series or before it (a zero rolling deviation gives NaN). That lookup then raises an uncaught `KeyError`; a value dropped earlier in the series changes nothing. `Chart.Analytics.momentum` returns values without dates, so the model cannot see this case. It builds the entry from the positional pairing.
- scipy spline smoothing (`_get_smooth_curve`) is floating point. The model records only whether the spline or the raw tail is drawn (`Tickers.Path`).
- The data loader, configuration loading, and matplotlib drawing, window management and `draw_idle` are I/O. The loader is a map from symbol to rows.
- `_format_coords`, `strftime` date text and `upper()` on names are text formatting. Dates are day ordinals and names are kept as parsed.
- The help text and its placement are layout. The overlay is a boolean.
- The white background of shown date labels is not modelled; only their alpha is.
- `print` warnings for skipped symbols are not modelled; a skip is `Success(None)`.
- Tickers.ValueOn: pandas `at` on a series with a repeated date returns several values. The model returns the first. `_process_ser` makes repeats impossible for cleaned closes.

=== FILE: arrow_proofs.dfy ===
/** Arrow-key properties of the session: after a pick forces a single
    line, repeated presses of one arrow walk its date label around the
    tail. */
module ArrowProofs {
  import opened Interaction
  import opened InteractionProofs

  lemma MulBound(d: int, n: int)
    requires n > 0
    ensures d >= 1 ==> d * n >= n
    ensures d <= -1 ==> d * n <= -n
  {
  }

  lemma ModUnique(x: int, q: int, r: int, n: int)
    requires n > 0 && 0 <= r < n && x == q * n + r
    ensures x % n == r
  {
    var q' := x / n;
    var r' := x % n;
    assert x == q' * n + r';
    assert (q' - q) * n == r - r';
    MulBound(q' - q, n);
    assert q' == q;
  }

  lemma ModAddLeft(a: int, b: int, n: int)
    requires n > 0
    ensures (a % n + b) % n == (a + b) % n
  {
    var y := a % n + b;
    var q := y / n;
    var r := y % n;
    assert y == q * n + r;
    assert a == (a / n) * n + a % n;
    assert a + b == (q + a / n) * n + r;
    ModUnique(a + b, q + a / n, r, n);
  }

  lemma StepsAdd(t: int, step: int, m: nat, n: int)
    requires n > 0 && m >= 1
    ensures ((t + step) % n + (m - 1) * step) % n == (t + m * step) % n
  {
    ModAddLeft(t + step, (m - 1) * step, n);
    assert (m - 1) * step + step == m * step;
  }

  /** The cursor position after `m` moves of `step` on a ring of `n`
      positions, one Python-style remainder at a time. */
  function Advance(t: int, step: int, m: nat, n: int): int
    requires n > 0
    decreases m
  {
    if m == 0 then t else Advance((t + step) % n, step, m - 1, n)
  }

  /** `m` single moves land where one move of `m * step` does. */
  lemma {:induction false} AdvanceClosedForm(t: int, step: int, m: nat, n: int)
    requires n > 0 && 0 <= t < n
    ensures Advance(t, step, m, n) == (t + m * step) % n
    decreases m
  {
    if m > 0 {
      AdvanceClosedForm((t + step) % n, step, m - 1, n);
      StepsAdd(t, step, m, n);
    }
  }

  function Repeat(key: string, m: nat): (r: seq<Event>)
    ensures |r| == m && forall k :: 0 <= k < m ==> r[k] == KeyPress(key)
  {
    seq(m, _ => KeyPress(key))
  }

  predicate OnlyForced(s: Session, h: nat) {
    h < |s.entries| && forall i :: 0 <= i < |s.entries| ==> (s.entries[i].line == 1.0 <==> i == h)
  }

  /** The single forced entry shows exactly the cursor's date label. */
  predicate ArrowReady(s: Session, h: nat) {
    Valid(s) && s.tabbable && OnlyForced(s, h) && s.active == [DateRef(h, s.tabindex)]
  }

  /** One arrow press when the single forced entry shows the cursor's date
      label: the label moves one step. */
  lemma ArrowStep(s: Session, key: string, h: nat)
    requires key == "left" || key == "right"
    requires ArrowReady(s, h)
    ensures var p := CycleDates(s, key);
            && ArrowReady(p, h) && p.tail == s.tail
            && p.tabindex == (s.tabindex + Step(key)) % s.tail
  {
    var p := CycleDates(s, key);
    CycleDatesEffect(s, key);
    HighlightedSingle(s.entries, h, |s.entries|, p.tabindex);
    assert forall i :: 0 <= i < |p.entries| ==> SameArtistsAt(p.entries, s.entries, i);
  }

  lemma RunRepeat(s: Session, key: string, m: nat)
    requires Shape(s) && m > 0
    ensures EventsFit(Repeat(key, m), |s.entries|)
    ensures Run(s, Repeat(key, m)) == Run(OnKeyPress(s, key), Repeat(key, m - 1))
  {
    assert Repeat(key, m)[1..] == Repeat(key, m - 1);
  }

  /** `m` presses of the same arrow, each handled by `_cycle_dates`. */
  function Presses(s: Session, key: string, m: nat): (r: Session)
    requires Shape(s)
    ensures Shape(r) && |r.entries| == |s.entries|
    decreases m
  {
    if m == 0 then s else Presses(CycleDates(s, key), key, m - 1)
  }

  /** Dispatching `m` presses of an arrow key is pressing it `m` times. */
  lemma {:induction false} RunRepeatIsPresses(s: Session, key: string, m: nat)
    requires key == "left" || key == "right"
    requires Shape(s)
    ensures EventsFit(Repeat(key, m), |s.entries|)
    ensures Run(s, Repeat(key, m)) == Presses(s, key, m)
    decreases m
  {
    if m == 0 {
      assert Repeat(key, m) == [];
    } else {
      RunRepeat(s, key, m);
      assert OnKeyPress(s, key) == CycleDates(s, key);
      RunRepeatIsPresses(CycleDates(s, key), key, m - 1);
    }
  }

  lemma {:induction false} PressesMoveOneStep(s: Session, key: string, h: nat, m: nat)
    requires key == "left" || key == "right"
    requires ArrowReady(s, h)
    ensures ArrowReady(Presses(s, key, m), h)
    ensures Presses(s, key, m).tabindex == Advance(s.tabindex, Step(key), m, s.tail)
    decreases m
  {
    if m > 0 {
      var p := CycleDates(s, key);
      ArrowStep(s, key, h);
      PressesMoveOneStep(p, key, h, m - 1);
      assert Presses(s, key, m) == Presses(p, key, m - 1);
      assert Advance(s.tabindex, Step(key), m, s.tail) == Advance(p.tabindex, Step(key), m - 1, s.tail);
    }
  }

  /** Once a date label is shown on the single forced entry, each further
      press of the same arrow moves the label one step. */
  lemma ArrowsMoveOneStep(s: Session, key: string, h: nat, m: nat)
    requires key == "left" || key == "right"
    requires ArrowReady(s, h)
    ensures EventsFit(Repeat(key, m), |s.entries|)
    ensures ArrowReady(Run(s, Repeat(key, m)), h)
    ensures Run(s, Repeat(key, m)).tabindex == Advance(s.tabindex, Step(key), m, s.tail)
  {
    RunRepeatIsPresses(s, key, m);
    PressesMoveOneStep(s, key, h, m);
  }

  /** The first arrow press after a pick forces a single line shows that
      line's first date label and leaves the cursor at 0. */
  lemma FirstArrowAfterPick(s: Session, key: string, h: nat)
    requires key == "left" || key == "right"
    requires Valid(s) && s.tabbable && OnlyForced(s, h)
    requires s.active == [] && s.tabindex == 0
    ensures var p := OnKeyPress(s, key);
            && Valid(p) && p.tabbable && OnlyForced(p, h) && p.tail == s.tail
            && p.tabindex == 0 && p.active == [DateRef(h, 0)]
  {
    var p := CycleDates(s, key);
    assert OnKeyPress(s, key) == p;
    CycleDatesEffect(s, key);
    HighlightedSingle(s.entries, h, |s.entries|, 0);
    assert forall i :: 0 <= i < |p.entries| ==> SameArtistsAt(p.entries, s.entries, i);
  }

  /** After a pick forces the line of a single entry, pressing the same
      arrow `m` times shows exactly one date label, at index
      `(m - 1) * step` modulo the tail length. */
  lemma ArrowsAfterPick(s: Session, key: string, h: nat, m: nat)
    requires key == "left" || key == "right"
    requires Valid(s) && s.tabbable && OnlyForced(s, h)
    requires s.active == [] && s.tabindex == 0
    requires m >= 1
    ensures EventsFit(Repeat(key, m), |s.entries|)
    ensures Run(s, Repeat(key, m)).tabindex == Advance(0, Step(key), m - 1, s.tail)
    ensures VisibleDates(Run(s, Repeat(key, m))) == {DateRef(h, Run(s, Repeat(key, m)).tabindex)}
    ensures Run(s, Repeat(key, m)).tabindex == ((m - 1) * Step(key)) % s.tail
  {
    var p := OnKeyPress(s, key);
    var r := Run(s, Repeat(key, m));
    FirstArrowAfterPick(s, key, h);
    RunRepeat(s, key, m);
    ArrowsMoveOneStep(p, key, h, m - 1);
    OneRecordedIsOneVisible(r, DateRef(h, r.tabindex));
    AdvanceClosedForm(0, Step(key), m - 1, s.tail);
  }

  lemma OneRecordedIsOneVisible(s: Session, d: DateRef)
    requires Valid(s) && s.active == [d]
    ensures VisibleDates(s) == {d}
  {
    VisibleAreRecorded(s);
    assert (set k | 0 <= k < |s.active| :: s.active[k]) == {d} by {
      assert s.active[0] == d;
    }
  }

  /** With one forced entry showing no date label yet, on a four-point tail,
      right shows dates 0, 1, 2, 3, 0 and left 0, 3, 2, 1, 0, one label at a
      time. */
  lemma FourPointRing(s: Session, m: nat)
    requires Valid(s) && s.tabbable && OnlyForced(s, 0)
    requires s.active == [] && s.tabindex == 0 && s.tail == 4
    requires 1 <= m <= 5
    ensures VisibleDates(Run(s, Repeat("right", m))) == {DateRef(0, [0, 1, 2, 3, 0][m - 1])}
    ensures VisibleDates(Run(s, Repeat("left", m))) == {DateRef(0, [0, 3, 2, 1, 0][m - 1])}
  {
    assert Step("right") == 1 && Step("left") == -1;
    ArrowsAfterPick(s, "right", 0, m);
    ArrowsAfterPick(s, "left", 0, m);
    FourRing(m - 1);
  }

  /** With lines off, a pick on the only entry of a four-point tail forces
      its line; right then shows dates 0, 1, 2, 3, 0 and left 0, 3, 2, 1, 0,
      one label at a time. */
  lemma FourPointTailCycles(m: nat)
    requires 1 <= m <= 5
    ensures var s := Pick(Initial(1, 4), 0);
            && VisibleDates(Run(s, Repeat("right", m))) == {DateRef(0, [0, 1, 2, 3, 0][m - 1])}
            && VisibleDates(Run(s, Repeat("left", m))) == {DateRef(0, [0, 3, 2, 1, 0][m - 1])}
  {
    var s := Pick(Initial(1, 4), 0);
    assert Valid(s) && s.tabbable && OnlyForced(s, 0) && s.active == [] && s.tabindex == 0 && s.tail == 4 by {
      InitialIsValid(1, 4);
      PickValid(Initial(1, 4), 0);
    }
    FourPointRing(s, m);
  }

  /** The positions visited on a ring of four, stepping forward and back. */
  lemma FourRing(k: nat)
    requires k <= 4
    ensures Advance(0, 1, k, 4) == [0, 1, 2, 3, 0][k]
    ensures Advance(0, -1, k, 4) == [0, 3, 2, 1, 0][k]
  {
    assert Advance(0, 1, 4, 4) == 0;
    assert Advance(0, -1, 4, 4) == 0;
  }
}

=== FILE: chart.dfy ===
/** `RRG.plot` up to the drawing calls: the benchmark checks, the loop
    over the watchlist, the running axis extremes, the padded axis limits
    and the quadrant labels. */
module Chart {
  import opened Wrappers
  import opened Settings
  import opened Series
  import opened Quadrant
  import opened Tickers
  import Interaction
  import InteractionProofs

  /** What the loader returns: each symbol's closes as stored, possibly
      unsorted and with repeated dates. A symbol it cannot load is absent. */
  type Loader = map<string, seq<Point>>

  /** The rolling calculations, taken as given: the RS-ratio series of a
      symbol's closes against the benchmark's closes, and the RS-momentum
      values of a ratio series measured from a base value. Momentum values
      carry no dates: they are paired with ratio points by position, so
      the source's failing date lookup of a momentum value dropped inside
      the series is not represented. */
  datatype Analytics = Analytics(
    ratio: (seq<Point>, seq<Point>) -> seq<Point>,
    momentum: (seq<Point>, real) -> seq<real>)

  /** Everything one call of `plot` reads. `smoothing` says whether scipy
      is installed. */
  datatype Plot = Plot(settings: Settings, loader: Loader, analytics: Analytics, smoothing: bool)

  datatype Chart = Chart(
    entries: seq<PlotEntry>,
    bounds: Bounds,
    xLimits: (real, real),
    yLimits: (real, real),
    labels: seq<QuadrantLabel>)

  /** `loader.get(symbol)` followed by the `None` / `empty` test. */
  predicate HasData(loader: Loader, symbol: string) {
    symbol in loader && |loader[symbol]| > 0
  }

  /** The ratio and momentum series of a symbol with data, and the base
      its momentum is measured from. */
  function Measure(p: Plot, benchmark: seq<Point>, symbol: string): (r: Result<(seq<Point>, seq<real>), Error>)
    requires HasData(p.loader, symbol)
    ensures var ratio := p.analytics.ratio(ProcessSeries(p.loader[symbol]), benchmark);
            var base := MomentumBase(ratio, p.settings.baseDate, p.settings.period);
            && (r.Failure? <==> base.Failure?)
            && (r.Failure? ==> r.error == base.error)
            && (r.Success? ==> r.value == (ratio, p.analytics.momentum(ratio, base.value)))
  {
    var ratio := p.analytics.ratio(ProcessSeries(p.loader[symbol]), benchmark);
    var base :- MomentumBase(ratio, p.settings.baseDate, p.settings.period);
    Success((ratio, p.analytics.momentum(ratio, base)))
  }

  /** One pass of the watchlist loop. `Success(None)` is a skipped symbol:
      nothing loaded, or fewer values than the tail needs. A malformed
      entry or a failed momentum base aborts the plot. */
  function PlotTicker(p: Plot, benchmark: seq<Point>, id: nat, text: string): (r: Result<Option<PlotEntry>, Error>)
    requires p.settings.tail >= 2
    ensures r.Success? && r.value.Some? ==> r.value.value.id == id
    ensures ParseEntry(text).Failure? ==> r == Failure(MalformedEntry(text))
    ensures ParseEntry(text).Success? && !HasData(p.loader, ParseEntry(text).value.0) ==> r == Success(None)
    ensures ParseEntry(text).Success? && HasData(p.loader, ParseEntry(text).value.0) ==>
              var m := Measure(p, benchmark, ParseEntry(text).value.0);
              && (m.Failure? ==> r == Failure(m.error))
              && (m.Success? && (|m.value.0| < p.settings.tail || |m.value.1| < p.settings.tail) ==> r == Success(None))
              && (m.Success? && |m.value.0| >= p.settings.tail && |m.value.1| >= p.settings.tail ==>
                    r == Success(Some(MakeEntry(id, ParseEntry(text).value.0, ParseEntry(text).value.1,
                                                m.value.0, m.value.1, p.settings.tail, p.smoothing))))
  {
    var parsed := ParseEntry(text);
    if parsed.Failure? then Failure(parsed.error)
    else
      var symbol := parsed.value.0;
      if !HasData(p.loader, symbol) then Success(None)
      else
        var m := Measure(p, benchmark, symbol);
        if m.Failure? then Failure(m.error)
        else
          var tail := p.settings.tail;
          if |m.value.0| < tail || |m.value.1| < tail then Success(None)
          else Success(Some(MakeEntry(id, symbol, parsed.value.1, m.value.0, m.value.1, tail, p.smoothing)))
  }

  /** A plotted symbol carries its watchlist position, the names parsed
      from its entry, one tail marker fewer than the tail length, one date
      label per tail point, and the colour of its head's quadrant; only
      entries that parse, load and hold a full tail are plotted, and only
      malformed entries and failed bases abort. */
  lemma PlotTickerOutcome(p: Plot, benchmark: seq<Point>, id: nat, text: string)
    requires p.settings.tail >= 2
    ensures var r := PlotTicker(p, benchmark, id, text);
            r.Failure? ==> r.error == MalformedEntry(text) || r.error.BaseDateMissing? || r.error.PeriodOutOfRange?
    ensures var r := PlotTicker(p, benchmark, id, text);
            r.Success? && r.value.Some? ==>
              var e := r.value.value;
              && ParseEntry(text) == Success((e.ticker, e.name))
              && HasData(p.loader, e.ticker)
              && Measure(p, benchmark, e.ticker).Success?
              && e.id == id
              && |e.history| == p.settings.tail - 1
              && |e.dateLabels| == p.settings.tail
              && e.color == GetColor(e.head.x, e.head.y)
  {
    var parsed := ParseEntry(text);
    if parsed.Success? && HasData(p.loader, parsed.value.0) {
      var m := Measure(p, benchmark, parsed.value.0);
      if m.Failure? {
        var base := MomentumBase(p.analytics.ratio(ProcessSeries(p.loader[parsed.value.0]), benchmark),
                                 p.settings.baseDate, p.settings.period);
        assert m.error == base.error;
      }
    }
  }

  /** The outcome of each watchlist position, in order. */
  function Outcomes(p: Plot, benchmark: seq<Point>, watchlist: seq<string>): (o: seq<Result<Option<PlotEntry>, Error>>)
    requires p.settings.tail >= 2
    ensures |o| == |watchlist|
    ensures forall i :: 0 <= i < |o| ==> o[i] == PlotTicker(p, benchmark, i, watchlist[i])
  {
    seq(|watchlist|, i requires 0 <= i < |watchlist| => PlotTicker(p, benchmark, i, watchlist[i]))
  }

  /** An outcome that plots an entry plots it under its own position. */
  predicate Positioned(o: seq<Result<Option<PlotEntry>, Error>>) {
    forall i :: 0 <= i < |o| && o[i].Success? && o[i].value.Some? ==> o[i].value.value.id == i
  }

  /** The loop over outcomes: stop at the first failure, otherwise keep the
      plotted entries in watchlist order. */
  function Collect(o: seq<Result<Option<PlotEntry>, Error>>): (r: Result<seq<PlotEntry>, Error>)
    requires Positioned(o)
    ensures r.Success? <==> forall i :: 0 <= i < |o| ==> o[i].Success?
    ensures r.Failure? ==>
              exists i :: 0 <= i < |o| && o[i] == Failure(r.error) && forall j :: 0 <= j < i ==> o[j].Success?
    ensures r.Success? ==>
              forall k :: 0 <= k < |r.value| ==> r.value[k].id < |o| && o[r.value[k].id] == Success(Some(r.value[k]))
    ensures r.Success? ==> forall k, l :: 0 <= k < l < |r.value| ==> r.value[k].id < r.value[l].id
    ensures r.Success? ==>
              forall i :: 0 <= i < |o| && o[i].value.Some? ==> exists k :: 0 <= k < |r.value| && r.value[k].id == i
    decreases |o|
  {
    if |o| == 0 then Success([])
    else
      var n := |o| - 1;
      var front := o[..n];
      assert forall i :: 0 <= i < n ==> front[i] == o[i];
      var done :- Collect(front);
      if o[n].Failure? then Failure(o[n].error)
      else if o[n].value.Some? then
        var r := done + [o[n].value.value];
        assert r[|done|] == o[n].value.value;
        assert forall k :: 0 <= k < |done| ==> r[k] == done[k];
        Success(r)
      else Success(done)
  }

  /** The whole watchlist loop, symbols in order; the first fatal entry
      aborts the plot, and every symbol that is not skipped is plotted
      once, in watchlist order. */
  function PlotTickers(p: Plot, benchmark: seq<Point>, watchlist: seq<string>): (r: Result<seq<PlotEntry>, Error>)
    requires p.settings.tail >= 2
    ensures r.Success? <==> forall i :: 0 <= i < |watchlist| ==> PlotTicker(p, benchmark, i, watchlist[i]).Success?
    ensures r.Failure? ==>
              exists i :: 0 <= i < |watchlist|
                && PlotTicker(p, benchmark, i, watchlist[i]) == Failure(r.error)
                && forall j :: 0 <= j < i ==> PlotTicker(p, benchmark, j, watchlist[j]).Success?
    ensures r.Success? ==>
              forall k :: 0 <= k < |r.value| ==>
                r.value[k].id < |watchlist|
                && PlotTicker(p, benchmark, r.value[k].id, watchlist[r.value[k].id]) == Success(Some(r.value[k]))
    ensures r.Success? ==> forall k, l :: 0 <= k < l < |r.value| ==> r.value[k].id < r.value[l].id
    ensures r.Success? ==>
              forall i :: 0 <= i < |watchlist| && PlotTicker(p, benchmark, i, watchlist[i]).value.Some? ==>
                exists k :: 0 <= k < |r.value| && r.value[k].id == i
  {
    Collect(Outcomes(p, benchmark, watchlist))
  }

  // ---------------------------------------------------------------------
  // Axis extremes

  /** The extremes before any symbol is plotted: x_max = y_max = 0 and
      x_min = y_min = 200. */
  const Start: Bounds := Bounds(200.0, 0.0, 200.0, 0.0)

  /** The padding added on each side of the extremes. */
  const Margin: real := 0.3

  /** One point's update of the running extremes: afterwards the point is
      within them, they have only grown, and each is its old value or the
      point's coordinate. */
  function Include(b: Bounds, c: Coord): (r: Bounds)
    ensures Within(r, c.x, c.y)
    ensures r.xMin <= b.xMin && r.xMax >= b.xMax && r.yMin <= b.yMin && r.yMax >= b.yMax
    ensures (r.xMin == b.xMin || r.xMin == c.x) && (r.xMax == b.xMax || r.xMax == c.x)
    ensures (r.yMin == b.yMin || r.yMin == c.y) && (r.yMax == b.yMax || r.yMax == c.y)
  {
    Bounds(
      if c.x < b.xMin then c.x else b.xMin,
      if c.x > b.xMax then c.x else b.xMax,
      if c.y < b.yMin then c.y else b.yMin,
      if c.y > b.yMax then c.y else b.yMax)
  }

  /** The extremes after taking in every point, one at a time. Every point
      ends up within them, they only grow, and each one is either its
      starting value or some point's coordinate. */
  function Widen(b: Bounds, pts: seq<Coord>): (r: Bounds)
    ensures forall k :: 0 <= k < |pts| ==> Within(r, pts[k].x, pts[k].y)
    ensures r.xMin <= b.xMin && r.xMax >= b.xMax && r.yMin <= b.yMin && r.yMax >= b.yMax
    ensures r.xMin == b.xMin || exists k :: 0 <= k < |pts| && r.xMin == pts[k].x
    ensures r.xMax == b.xMax || exists k :: 0 <= k < |pts| && r.xMax == pts[k].x
    ensures r.yMin == b.yMin || exists k :: 0 <= k < |pts| && r.yMin == pts[k].y
    ensures r.yMax == b.yMax || exists k :: 0 <= k < |pts| && r.yMax == pts[k].y
  {
    if |pts| == 0 then b
    else
      var n := |pts| - 1;
      var w := Widen(b, pts[..n]);
      assert forall k :: 0 <= k < n ==> pts[..n][k] == pts[k];
      Include(w, pts[n])
  }

  /** The points of one symbol that enter the extremes: its tail, head
      last. */
  function TailOf(e: PlotEntry): seq<Coord> {
    e.history + [e.head]
  }

  /** The tail points of all plotted symbols, in plotting order. */
  function AllPoints(es: seq<PlotEntry>): (r: seq<Coord>)
    ensures forall k, j :: 0 <= k < |es| && 0 <= j < |TailOf(es[k])| ==> TailOf(es[k])[j] in r
    ensures forall c :: c in r ==> exists k :: 0 <= k < |es| && c in TailOf(es[k])
  {
    if |es| == 0 then []
    else
      var n := |es| - 1;
      var front := AllPoints(es[..n]);
      assert forall k :: 0 <= k < n ==> es[..n][k] == es[k];
      front + TailOf(es[n])
  }

  /** The axis limits: the extremes widened by the margin on both sides. */
  function Limits(lo: real, hi: real): (l: (real, real))
    ensures l.0 < lo && hi < l.1
    ensures l.1 - l.0 == hi - lo + 2.0 * Margin
    ensures l.0 == lo - Margin && l.1 == hi + Margin
  {
    (lo - Margin, hi + Margin)
  }

  // ---------------------------------------------------------------------
  // The chart

  /** `plot`: the benchmark must load and hold at least the minimum data
      length (counted before duplicates are dropped); then every symbol is
      plotted against the cleaned benchmark series. */
  function BuildChart(p: Plot, watchlist: seq<string>): (r: Result<Chart, Error>)
    requires p.settings.tail >= 2
    ensures !HasData(p.loader, p.settings.benchmark) <==> r == Failure(BenchmarkUnavailable)
    ensures r == Failure(BenchmarkTooShort) <==>
              HasData(p.loader, p.settings.benchmark) && |p.loader[p.settings.benchmark]| < p.settings.minimumLength
    ensures r.Success? <==>
              && HasData(p.loader, p.settings.benchmark)
              && |p.loader[p.settings.benchmark]| >= p.settings.minimumLength
              && PlotTickers(p, ProcessSeries(p.loader[p.settings.benchmark]), watchlist).Success?
    ensures r.Success? ==>
              r.value.entries == PlotTickers(p, ProcessSeries(p.loader[p.settings.benchmark]), watchlist).value
    ensures r.Success? ==>
              var c := r.value;
              forall k, j :: 0 <= k < |c.entries| && 0 <= j < |TailOf(c.entries[k])| ==>
                && Within(c.bounds, TailOf(c.entries[k])[j].x, TailOf(c.entries[k])[j].y)
                && c.xLimits.0 < TailOf(c.entries[k])[j].x < c.xLimits.1
                && c.yLimits.0 < TailOf(c.entries[k])[j].y < c.yLimits.1
    ensures r.Success? ==> r.value.bounds == Widen(Start, AllPoints(r.value.entries))
    ensures r.Success? ==> r.value.labels == QuadrantLabels(r.value.bounds)
    ensures r.Success? ==>
              && r.value.xLimits == Limits(r.value.bounds.xMin, r.value.bounds.xMax)
              && r.value.yLimits == Limits(r.value.bounds.yMin, r.value.bounds.yMax)
  {
    var name := p.settings.benchmark;
    if !HasData(p.loader, name) then Failure(BenchmarkUnavailable)
    else if |p.loader[name]| < p.settings.minimumLength then Failure(BenchmarkTooShort)
    else
      var entries :- PlotTickers(p, ProcessSeries(p.loader[name]), watchlist);
      Success(Frame(entries))
  }

  /** The chart around the plotted entries: the extremes of all their tail
      points, the padded limits and the quadrant labels those extremes
      allow. */
  function Frame(entries: seq<PlotEntry>): (c: Chart)
    ensures c.entries == entries
    ensures forall k, j :: 0 <= k < |entries| && 0 <= j < |TailOf(entries[k])| ==>
              && Within(c.bounds, TailOf(entries[k])[j].x, TailOf(entries[k])[j].y)
              && c.xLimits.0 < TailOf(entries[k])[j].x < c.xLimits.1
              && c.yLimits.0 < TailOf(entries[k])[j].y < c.yLimits.1
    ensures c.bounds == Widen(Start, AllPoints(entries))
    ensures c.labels == QuadrantLabels(c.bounds)
    ensures c.xLimits == Limits(c.bounds.xMin, c.bounds.xMax)
    ensures c.yLimits == Limits(c.bounds.yMin, c.bounds.yMax)
  {
    var b := Widen(Start, AllPoints(entries));
    Chart(entries, b, Limits(b.xMin, b.xMax), Limits(b.yMin, b.yMax), QuadrantLabels(b))
  }

  /** Each extreme is the starting value or the coordinate of some
      plotted tail point: the maximum never drops below 0 and the minimum
      never rises above 200, whatever the data. */
  lemma ExtremesAreAttainedOrStart(es: seq<PlotEntry>)
    ensures var b := Widen(Start, AllPoints(es));
            b.xMax == 0.0 || exists k, pt :: 0 <= k < |es| && pt in TailOf(es[k]) && pt.x == b.xMax
    ensures var b := Widen(Start, AllPoints(es));
            b.xMin == 200.0 || exists k, pt :: 0 <= k < |es| && pt in TailOf(es[k]) && pt.x == b.xMin
    ensures var b := Widen(Start, AllPoints(es));
            b.yMax == 0.0 || exists k, pt :: 0 <= k < |es| && pt in TailOf(es[k]) && pt.y == b.yMax
    ensures var b := Widen(Start, AllPoints(es));
            b.yMin == 200.0 || exists k, pt :: 0 <= k < |es| && pt in TailOf(es[k]) && pt.y == b.yMin
  {
    var pts := AllPoints(es);
    var b := Widen(Start, pts);
    if b.xMax != 0.0 {
      var j :| 0 <= j < |pts| && b.xMax == pts[j].x;
      assert pts[j] in pts;
    }
    if b.xMin != 200.0 {
      var j :| 0 <= j < |pts| && b.xMin == pts[j].x;
      assert pts[j] in pts;
    }
    if b.yMax != 0.0 {
      var j :| 0 <= j < |pts| && b.yMax == pts[j].y;
      assert pts[j] in pts;
    }
    if b.yMin != 200.0 {
      var j :| 0 <= j < |pts| && b.yMin == pts[j].y;
      assert pts[j] in pts;
    }
  }

  // ---------------------------------------------------------------------
  // Scenarios

  /** With the default settings the loader is asked for 84 observations; a
      benchmark with 50 rows stops the plot before any symbol is read. */
  lemma ShortBenchmarkStopsThePlot(name: string, loader: Loader, analytics: Analytics, smoothing: bool,
                                   watchlist: seq<string>)
    requires name != "" && name in loader && |loader[name]| == 50
    ensures var st := MakeSettings(Config(Some(name), None, None, None), DefaultTail, None);
            && st.Success?
            && BuildChart(Plot(st.value, loader, analytics, smoothing), watchlist) == Failure(BenchmarkTooShort)
  {
    DefaultMinimumLength(name);
  }

  /** A symbol the loader returns no rows for is skipped, not fatal. */
  lemma EmptySeriesIsSkipped(p: Plot, benchmark: seq<Point>, id: nat, symbol: string)
    requires p.settings.tail >= 2
    requires ',' !in symbol && symbol in p.loader && p.loader[symbol] == []
    ensures PlotTicker(p, benchmark, id, symbol) == Success(None)
  {
  }

  /** `SPY,` names the symbol SPY with an empty display name: the split
      yields an empty string, which is not replaced by the symbol. */
  lemma TrailingCommaGivesEmptyName()
    ensures ParseEntry("SPY,") == Success(("SPY", ""))
  {
    ParseEntryRoundTrip("SPY", "");
    assert "SPY" + [','] + "" == "SPY,";
  }

  /** The interaction session a chart starts with: one session entry per
      plotted symbol, in the same order, each with one date label per tail
      point, all hidden, and the session invariant holds. */
  lemma ChartStartsSession(p: Plot, watchlist: seq<string>)
    requires p.settings.tail >= 2
    ensures BuildChart(p, watchlist).Success? ==>
              var c := BuildChart(p, watchlist).value;
              var s := Interaction.Initial(|c.entries|, p.settings.tail);
              && InteractionProofs.Valid(s)
              && InteractionProofs.VisibleDates(s) == {}
              && |s.entries| == |c.entries|
              && forall k :: 0 <= k < |c.entries| ==> |s.entries[k].dates| == |c.entries[k].dateLabels|
  {
    if BuildChart(p, watchlist).Success? {
      var c := BuildChart(p, watchlist).value;
      var entries := PlotTickers(p, ProcessSeries(p.loader[p.settings.benchmark]), watchlist).value;
      assert c.entries == entries;
      InteractionProofs.InitialIsValid(|c.entries|, p.settings.tail);
      forall k | 0 <= k < |c.entries|
        ensures |c.entries[k].dateLabels| == p.settings.tail
      {
        PlotTickerOutcome(p, ProcessSeries(p.loader[p.settings.benchmark]), c.entries[k].id, watchlist[c.entries[k].id]);
      }
    }
  }
}

=== FILE: interaction.dfy ===
/** The interaction state machine of the `RRG` class: the alpha bookkeeping
    behind the Delete / A / T / H / arrow keys and the mouse pick on a head
    marker. Matplotlib artists are reduced to their alpha values. */
module Interaction {
  import opened Wrappers

  /** Default alpha of name labels when text is toggled on. */
  const TextAlpha: real := 0.6
  /** Default alpha of tail lines when lines are toggled on. */
  const LineAlpha: real := 0.5

  /** One element of `active_date_labels`: date label `index` of the entry at
      position `entry`. */
  datatype DateRef = DateRef(entry: nat, index: nat)

  /** The alphas of one plotted ticker: tail line, history markers, name
      label, and one date label per tail point. */
  datatype Entry = Entry(line: real, markers: real, annotation: real, dates: seq<real>)

  /** The interaction fields of an `RRG` object. `entries` follows the
      insertion order of `self.state`; `tail` is `tail_count`, the number of
      date labels every entry holds. */
  datatype Session = Session(
    entries: seq<Entry>,
    tail: int,
    textState: real,
    lineState: real,
    tabbable: bool,
    tabindex: int,
    highlighted: int,
    active: seq<DateRef>,
    helpShown: bool)

  predicate Uniform(es: seq<Entry>, tail: int) {
    forall i :: 0 <= i < |es| ==> |es[i].dates| == tail
  }

  predicate RefsIn(refs: seq<DateRef>, n: int, tail: int) {
    forall k :: 0 <= k < |refs| ==> refs[k].entry < n && refs[k].index < tail
  }

  /** Every index the handlers use is in range: each entry has `tail` date
      labels, the cursor is a valid date index and every recorded date label
      exists. */
  predicate Shape(s: Session) {
    && s.tail >= 2
    && Uniform(s.entries, s.tail)
    && 0 <= s.tabindex < s.tail
    && RefsIn(s.active, |s.entries|, s.tail)
  }

  /** Line, markers and label alphas of two entry lists agree pointwise. */
  predicate SameArtists(a: seq<Entry>, b: seq<Entry>) {
    && |a| == |b|
    && forall i :: 0 <= i < |a| ==>
         a[i].line == b[i].line && a[i].markers == b[i].markers && a[i].annotation == b[i].annotation
  }

  /** The session fields other than entries and date-label bookkeeping. */
  predicate SameGlobals(a: Session, b: Session) {
    && a.tail == b.tail
    && a.textState == b.textState
    && a.lineState == b.lineState
    && a.tabbable == b.tabbable
    && a.highlighted == b.highlighted
    && a.helpShown == b.helpShown
  }

  /** Sets one date label's alpha. */
  function SetDate(es: seq<Entry>, i: nat, j: nat, v: real): (r: seq<Entry>)
    requires i < |es| && j < |es[i].dates|
    ensures SameArtists(r, es)
    ensures forall k :: 0 <= k < |r| ==> |r[k].dates| == |es[k].dates|
    ensures forall k, m :: 0 <= k < |r| && 0 <= m < |r[k].dates| ==>
              r[k].dates[m] == if k == i && m == j then v else es[k].dates[m]
  {
    es[i := es[i].(dates := es[i].dates[j := v])]
  }

  /** Sets to zero the alpha of every date label listed in `refs`. */
  function HideDates(es: seq<Entry>, refs: seq<DateRef>, tail: int): (r: seq<Entry>)
    requires Uniform(es, tail)
    requires RefsIn(refs, |es|, tail)
    ensures SameArtists(r, es)
    ensures Uniform(r, tail)
    ensures forall i, j :: 0 <= i < |r| && 0 <= j < tail ==>
              r[i].dates[j] == if DateRef(i, j) in refs then 0.0 else es[i].dates[j]
    decreases |refs|
  {
    if refs == [] then es
    else
      var d := refs[0];
      var rest := HideDates(SetDate(es, d.entry, d.index, 0.0), refs[1..], tail);
      assert forall x :: x in refs <==> x == d || x in refs[1..] by {
        assert refs == [d] + refs[1..];
      }
      rest
  }

  /** `_clear_active_date_labels`: hide every recorded date label and forget
      them. */
  function ClearActiveDateLabels(s: Session): (r: Session)
    requires Shape(s)
    ensures Shape(r)
    ensures r.active == []
    ensures SameArtists(r.entries, s.entries) && SameGlobals(r, s) && r.tabindex == s.tabindex
    ensures forall i, j :: 0 <= i < |r.entries| && 0 <= j < s.tail ==>
              r.entries[i].dates[j] == if DateRef(i, j) in s.active then 0.0 else s.entries[i].dates[j]
  {
    s.(entries := HideDates(s.entries, s.active, s.tail), active := [])
  }

  /** `_on_pick` clears the recorded date labels only when there are any;
      either way the result is as if every recorded label had been hidden. */
  function ClearIfActive(s: Session): (r: Session)
    requires Shape(s)
    ensures Shape(r)
    ensures r.active == []
    ensures SameArtists(r.entries, s.entries) && SameGlobals(r, s) && r.tabindex == s.tabindex
    ensures forall i, j :: 0 <= i < |r.entries| && 0 <= j < s.tail ==>
              r.entries[i].dates[j] == if DateRef(i, j) in s.active then 0.0 else s.entries[i].dates[j]
  {
    if s.active != [] then ClearActiveDateLabels(s) else s
  }

  /** One entry in the loop of `_clear_all`: a visible line hides its line
      and markers and returns its label to the text state; an entry whose
      line is hidden is left alone. Date labels are never touched. */
  function ClearEntry(e: Entry, textState: real): (r: Entry)
    ensures r.line == 0.0 && r.dates == e.dates
    ensures e.line != 0.0 ==> r.markers == 0.0 && r.annotation == textState
    ensures e.line == 0.0 ==> r == e
  {
    if e.line != 0.0 then e.(line := 0.0, markers := 0.0, annotation := textState) else e
  }

  /** `_clear_all` (Delete). Only entries whose line is visible are reset;
      the highlight count and `tabbable` are reset only when some date label
      had been revealed, and the cursor is left where it was. */
  function ClearAll(s: Session): (r: Session)
    requires Shape(s)
    ensures Shape(r) && r.tail == s.tail
    ensures r.active == []
    ensures |r.entries| == |s.entries|
    ensures forall i :: 0 <= i < |r.entries| ==> r.entries[i].line == 0.0
    ensures forall i :: 0 <= i < |r.entries| && s.entries[i].line != 0.0 ==>
              r.entries[i].markers == 0.0 && r.entries[i].annotation == s.textState
    ensures forall i :: 0 <= i < |r.entries| && s.entries[i].line == 0.0 ==>
              r.entries[i].markers == s.entries[i].markers && r.entries[i].annotation == s.entries[i].annotation
    ensures forall i, j :: 0 <= i < |r.entries| && 0 <= j < s.tail ==>
              r.entries[i].dates[j] == if DateRef(i, j) in s.active then 0.0 else s.entries[i].dates[j]
    ensures s.active != [] ==> r.highlighted == 0 && !r.tabbable
    ensures s.active == [] ==> r.highlighted == s.highlighted && r.tabbable == s.tabbable
    ensures r.tabindex == s.tabindex && r.helpShown == s.helpShown
    ensures r.textState == s.textState && r.lineState == s.lineState
  {
    var es := seq(|s.entries|, i requires 0 <= i < |s.entries| => ClearEntry(s.entries[i], s.textState));
    var t := s.(entries := es);
    if s.active != [] then
      ClearActiveDateLabels(t).(highlighted := 0, tabbable := false)
    else
      t
  }

  /** `_toggle_text` (A): flip the text state between 0 and `TextAlpha` and
      give every label not forced to 1 the new state. */
  function ToggleText(s: Session): (r: Session)
    requires Shape(s)
    ensures Shape(r)
    ensures r.textState == if s.textState == 0.0 then TextAlpha else 0.0
    ensures |r.entries| == |s.entries|
    ensures forall i :: 0 <= i < |r.entries| ==>
              r.entries[i].annotation == (if s.entries[i].annotation == 1.0 then 1.0 else r.textState)
    ensures forall i :: 0 <= i < |r.entries| ==>
              r.entries[i] == s.entries[i].(annotation := r.entries[i].annotation)
    ensures r == s.(entries := r.entries, textState := r.textState)
  {
    var alpha := if s.textState == 0.0 then TextAlpha else 0.0;
    var es := seq(|s.entries|, i requires 0 <= i < |s.entries| =>
      if s.entries[i].annotation == 1.0 then s.entries[i] else s.entries[i].(annotation := alpha));
    s.(entries := es, textState := alpha)
  }

  /** `_toggle_lines` (T): flip the line state between 0 and `LineAlpha` and
      give every line not forced to 1 the new state. Markers are untouched. */
  function ToggleLines(s: Session): (r: Session)
    requires Shape(s)
    ensures Shape(r)
    ensures r.lineState == if s.lineState == 0.0 then LineAlpha else 0.0
    ensures |r.entries| == |s.entries|
    ensures forall i :: 0 <= i < |r.entries| ==>
              r.entries[i].line == (if s.entries[i].line == 1.0 then 1.0 else r.lineState)
    ensures forall i :: 0 <= i < |r.entries| ==>
              r.entries[i] == s.entries[i].(line := r.entries[i].line)
    ensures r == s.(entries := r.entries, lineState := r.lineState)
  {
    var alpha := if s.lineState == 0.0 then LineAlpha else 0.0;
    var es := seq(|s.entries|, i requires 0 <= i < |s.entries| =>
      if s.entries[i].line == 1.0 then s.entries[i] else s.entries[i].(line := alpha));
    s.(entries := es, lineState := alpha)
  }

  /** `_toggle_help` (H): show or hide the help overlay. */
  function ToggleHelp(s: Session): (r: Session)
    ensures r.helpShown != s.helpShown
    ensures r == s.(helpShown := r.helpShown)
  {
    s.(helpShown := !s.helpShown)
  }

  /** The new alpha of a picked entry's line or label, from the channel's
      global state and its default: Python's `a == d or d` is `True` (1) when
      `a == d` and `d` otherwise, and `a == 0 or 0` is 1 when `a == 0` and 0
      otherwise. */
  function PickAlpha(state: real, default: real, a: real): (r: real)
    ensures r == 1.0 || r == default || r == 0.0
    ensures var forced := if state == default then a == default else a == 0.0;
            && (forced ==> r == 1.0)
            && (!forced ==> r == if state == default then default else 0.0)
  {
    if state == default then (if a == default then 1.0 else default)
    else (if a == 0.0 then 1.0 else 0.0)
  }

  /** The picked entry: markers toggled, line and label through `PickAlpha`,
      date labels untouched. */
  function PickedEntry(e: Entry, lineState: real, textState: real): (r: Entry)
    ensures r.dates == e.dates
    ensures r.markers == if e.markers == 0.0 then 1.0 else 0.0
    ensures lineState == LineAlpha ==> r.line == (if e.line == LineAlpha then 1.0 else LineAlpha)
    ensures lineState != LineAlpha ==> r.line == (if e.line == 0.0 then 1.0 else 0.0)
    ensures textState == TextAlpha ==> r.annotation == (if e.annotation == TextAlpha then 1.0 else TextAlpha)
    ensures textState != TextAlpha ==> r.annotation == (if e.annotation == 0.0 then 1.0 else 0.0)
  {
    e.(markers := if e.markers == 0.0 then 1.0 else 0.0,
       line := PickAlpha(lineState, LineAlpha, e.line),
       annotation := PickAlpha(textState, TextAlpha, e.annotation))
  }

  /** `_on_pick`: a click on the head marker of the entry at position `p`. */
  function Pick(s: Session, p: nat): (r: Session)
    requires Shape(s)
    requires p < |s.entries|
    ensures Shape(r) && r.tail == s.tail
    ensures r.tabindex == 0 && r.active == []
    ensures |r.entries| == |s.entries|
    ensures forall i :: 0 <= i < |r.entries| && i != p ==>
              SameArtistsAt(r.entries, s.entries, i)
    ensures forall i, j :: 0 <= i < |r.entries| && 0 <= j < s.tail ==>
              r.entries[i].dates[j] == if DateRef(i, j) in s.active then 0.0 else s.entries[i].dates[j]
    ensures s.entries[p].markers == 0.0 ==>
              r.entries[p].markers == 1.0 && r.highlighted == s.highlighted + 1 && r.tabbable
    ensures s.entries[p].markers != 0.0 ==>
              r.entries[p].markers == 0.0 && r.highlighted == s.highlighted - 1
              && r.tabbable == (s.tabbable && r.highlighted != 0)
    ensures s.lineState == LineAlpha ==>
              r.entries[p].line == (if s.entries[p].line == LineAlpha then 1.0 else LineAlpha)
    ensures s.lineState != LineAlpha ==>
              r.entries[p].line == (if s.entries[p].line == 0.0 then 1.0 else 0.0)
    ensures s.textState == TextAlpha ==>
              r.entries[p].annotation == (if s.entries[p].annotation == TextAlpha then 1.0 else TextAlpha)
    ensures s.textState != TextAlpha ==>
              r.entries[p].annotation == (if s.entries[p].annotation == 0.0 then 1.0 else 0.0)
    ensures r.textState == s.textState && r.lineState == s.lineState && r.helpShown == s.helpShown
  {
    var c := ClearIfActive(s.(tabindex := 0));
    var highlight := c.entries[p].markers == 0.0;
    var count := if highlight then c.highlighted + 1 else c.highlighted - 1;
    var tabbable := if highlight then true else if count == 0 then false else c.tabbable;
    c.(entries := c.entries[p := PickedEntry(c.entries[p], c.lineState, c.textState)],
       highlighted := count, tabbable := tabbable)
  }

  predicate SameArtistsAt(a: seq<Entry>, b: seq<Entry>, i: int)
    requires 0 <= i < |a| && 0 <= i < |b|
  {
    a[i].line == b[i].line && a[i].markers == b[i].markers && a[i].annotation == b[i].annotation
  }

  /** The cursor step of an arrow key: `left` goes back, anything else
      (`right`) forward. */
  function Step(key: string): (r: int)
    ensures r == -1 || r == 1
    ensures r == -1 <==> key == "left"
  {
    if key == "left" then -1 else 1
  }

  /** Make date label `j` of entry `i` visible and record it. */
  function Reveal(s: Session, i: nat, j: nat): (r: Session)
    requires Shape(s) && i < |s.entries| && j < s.tail
    ensures Shape(r)
    ensures r.active == s.active + [DateRef(i, j)]
    ensures SameArtists(r.entries, s.entries) && SameGlobals(r, s) && r.tabindex == s.tabindex
    ensures forall a, b :: 0 <= a < |r.entries| && 0 <= b < s.tail ==>
              r.entries[a].dates[b] == if a == i && b == j then 1.0 else s.entries[a].dates[b]
  {
    s.(entries := SetDate(s.entries, i, j, 1.0), active := s.active + [DateRef(i, j)])
  }

  /** One iteration of the loop of `_cycle_dates`, for the entry at `i`:
      only an entry whose line is forced to 1 takes part. */
  function CycleEntry(s: Session, step: int, i: nat): (r: Session)
    requires Shape(s) && i < |s.entries|
    ensures Shape(r)
    ensures SameArtists(r.entries, s.entries) && SameGlobals(r, s)
  {
    var e := s.entries[i];
    if e.line != 1.0 then s
    else if e.dates[s.tabindex] == 0.0 then Reveal(s, i, s.tabindex)
    else
      var c := ClearActiveDateLabels(s);
      // Python's `%` with a positive divisor is never negative, like Dafny's.
      var t := (s.tabindex + step) % |e.dates|;
      Reveal(c.(tabindex := t), i, t)
  }

  /** The loop of `_cycle_dates` over the first `k` entries, in order. */
  function CycleOver(s: Session, step: int, k: nat): (r: Session)
    requires Shape(s) && k <= |s.entries|
    ensures Shape(r)
    ensures SameArtists(r.entries, s.entries) && SameGlobals(r, s)
  {
    if k == 0 then s else CycleEntry(CycleOver(s, step, k - 1), step, k - 1)
  }

  /** `_cycle_dates` (left / right arrows): a no-op unless some entry was
      highlighted by a pick. */
  function CycleDates(s: Session, key: string): (r: Session)
    requires Shape(s)
    ensures Shape(r)
    ensures !s.tabbable ==> r == s
    ensures SameArtists(r.entries, s.entries) && SameGlobals(r, s)
  {
    if !s.tabbable then s else CycleOver(s, Step(key), |s.entries|)
  }

  /** The handlers of the `key_handler` table, as a closed set. */
  datatype Command = ClearAllCmd | ToggleTextCmd | ToggleLinesCmd | ToggleHelpCmd | CycleCmd(key: string)

  /** The `key_handler` lookup: six key names, every other key unbound. */
  function KeyCommand(key: string): (c: Option<Command>)
    ensures c.Some? <==> key in {"delete", "a", "t", "h", "left", "right"}
    ensures c.Some? && c.value.CycleCmd? ==> c.value.key == key
    ensures key == "delete" ==> c == Some(ClearAllCmd)
    ensures key == "a" ==> c == Some(ToggleTextCmd)
    ensures key == "t" ==> c == Some(ToggleLinesCmd)
    ensures key == "h" ==> c == Some(ToggleHelpCmd)
    ensures key in {"left", "right"} ==> c == Some(CycleCmd(key))
  {
    if key == "delete" then Some(ClearAllCmd)
    else if key == "a" then Some(ToggleTextCmd)
    else if key == "t" then Some(ToggleLinesCmd)
    else if key == "h" then Some(ToggleHelpCmd)
    else if key == "left" || key == "right" then Some(CycleCmd(key))
    else None
  }

  function Apply(s: Session, c: Command): (r: Session)
    requires Shape(s)
    ensures Shape(r)
  {
    match c
    case ClearAllCmd => ClearAll(s)
    case ToggleTextCmd => ToggleText(s)
    case ToggleLinesCmd => ToggleLines(s)
    case ToggleHelpCmd => ToggleHelp(s)
    case CycleCmd(key) => CycleDates(s, key)
  }

  /** `_on_key_press`: dispatch a key name; unbound keys change nothing. */
  function OnKeyPress(s: Session, key: string): (r: Session)
    requires Shape(s)
    ensures Shape(r)
    ensures key !in {"delete", "a", "t", "h", "left", "right"} ==> r == s
    ensures key == "delete" ==> r == ClearAll(s)
    ensures key == "a" ==> r == ToggleText(s)
    ensures key == "t" ==> r == ToggleLines(s)
    ensures key == "h" ==> r == ToggleHelp(s)
    ensures key in {"left", "right"} ==> r == CycleDates(s, key)
  {
    match KeyCommand(key)
    case None => s
    case Some(c) => Apply(s, c)
  }

  /** The events the figure forwards: a key press or a pick on the head
      marker of the entry at a position. */
  datatype Event = KeyPress(key: string) | PickEntry(entry: nat)

  predicate EventsFit(events: seq<Event>, n: int) {
    forall k :: 0 <= k < |events| && events[k].PickEntry? ==> events[k].entry < n
  }

  function OnEvent(s: Session, ev: Event): (r: Session)
    requires Shape(s)
    requires ev.PickEntry? ==> ev.entry < |s.entries|
    ensures Shape(r)
    ensures |r.entries| == |s.entries|
  {
    match ev
    case KeyPress(key) => OnKeyPress(s, key)
    case PickEntry(p) => Pick(s, p)
  }

  /** Events dispatched one at a time, each handler running to completion. */
  function Run(s: Session, events: seq<Event>): (r: Session)
    requires Shape(s)
    requires EventsFit(events, |s.entries|)
    ensures Shape(r)
    ensures |r.entries| == |s.entries|
    decreases |events|
  {
    if events == [] then s
    else Run(OnEvent(s, events[0]), events[1..])
  }

  /** The state right after `plot`: every line, marker, label and date label
      is drawn with alpha 0 and both global toggles are off. */
  function Initial(n: nat, tail: int): (s: Session)
    requires tail >= 2
    ensures Shape(s)
    ensures |s.entries| == n
  {
    Session(seq(n, _ => Entry(0.0, 0.0, 0.0, seq(tail, _ => 0.0))), tail, 0.0, 0.0, false, 0, 0, [], false)
  }
}

=== FILE: interaction_proofs.dfy ===
/** Properties of the interaction state machine: the invariant every
    reachable session keeps, a loop-free description of the arrow keys, and
    what Delete, the toggles and a repeated pick leave behind. */
module InteractionProofs {
  import opened Interaction

  /** The alphas a handler can give: lines are hidden, at the global line
      state or forced to 1; markers and date labels are 0 or 1; name labels
      are at the global text state or forced to 1. */
  predicate AlphasOk(e: Entry, lineState: real, textState: real) {
    && (e.line == 0.0 || e.line == lineState || e.line == 1.0)
    && (e.markers == 0.0 || e.markers == 1.0)
    && (e.annotation == textState || e.annotation == 1.0)
    && forall j :: 0 <= j < |e.dates| ==> e.dates[j] == 0.0 || e.dates[j] == 1.0
  }

  /** Date label `t` of every entry among the first `k` whose line is forced
      to 1, in entry order: what one arrow-key press reveals. */
  function Highlighted(es: seq<Entry>, k: nat, t: nat): seq<DateRef>
    requires k <= |es|
  {
    if k == 0 then []
    else Highlighted(es, k - 1, t) + (if es[k - 1].line == 1.0 then [DateRef(k - 1, t)] else [])
  }

  /** A date label is visible exactly when it is recorded in `refs`. */
  predicate DatesMatch(es: seq<Entry>, refs: seq<DateRef>) {
    forall i, j :: 0 <= i < |es| && 0 <= j < |es[i].dates| ==>
      (es[i].dates[j] != 0.0 <==> DateRef(i, j) in refs)
  }

  /** The invariant of every session reachable from `Initial`: the recorded
      date labels are either none or exactly the cursor's label of every
      forced entry, and they are exactly the visible date labels. */
  predicate Valid(s: Session) {
    && Shape(s)
    && (s.lineState == 0.0 || s.lineState == LineAlpha)
    && (s.textState == 0.0 || s.textState == TextAlpha)
    && (forall i :: 0 <= i < |s.entries| ==> AlphasOk(s.entries[i], s.lineState, s.textState))
    && (s.active == [] || s.active == Highlighted(s.entries, |s.entries|, s.tabindex))
    && DatesMatch(s.entries, s.active)
  }

  /** The date labels currently visible. */
  ghost function VisibleDates(s: Session): set<DateRef> {
    set i, j | 0 <= i < |s.entries| && 0 <= j < |s.entries[i].dates| && s.entries[i].dates[j] != 0.0
      :: DateRef(i, j)
  }

  lemma VisibleAreRecorded(s: Session)
    requires Valid(s)
    ensures VisibleDates(s) == set k | 0 <= k < |s.active| :: s.active[k]
  {
    var recorded := set k | 0 <= k < |s.active| :: s.active[k];
    forall d | d in recorded ensures d in VisibleDates(s) {
      var k :| 0 <= k < |s.active| && s.active[k] == d;
      assert DateRef(d.entry, d.index) in s.active;
    }
    forall d | d in VisibleDates(s) ensures d in recorded {
      var k :| 0 <= k < |s.active| && s.active[k] == d;
    }
  }

  lemma {:induction false} HighlightedMember(es: seq<Entry>, k: nat, t: nat, i: nat, j: nat)
    requires k <= |es|
    ensures DateRef(i, j) in Highlighted(es, k, t) <==> 0 <= i < k && es[i].line == 1.0 && j == t
  {
    if k > 0 {
      HighlightedMember(es, k - 1, t, i, j);
    }
  }

  lemma {:induction false} HighlightedEmpty(es: seq<Entry>, k: nat, t: nat, t': nat)
    requires k <= |es|
    ensures Highlighted(es, k, t) == [] <==> Highlighted(es, k, t') == []
  {
    if k > 0 {
      HighlightedEmpty(es, k - 1, t, t');
    }
  }

  /** Only which lines are forced decides what the arrow keys reveal. */
  lemma {:induction false} HighlightedSameForced(es: seq<Entry>, es': seq<Entry>, k: nat, t: nat)
    requires k <= |es| && |es| == |es'|
    requires forall i :: 0 <= i < |es| ==> (es[i].line == 1.0 <==> es'[i].line == 1.0)
    ensures Highlighted(es, k, t) == Highlighted(es', k, t)
  {
    if k > 0 {
      HighlightedSameForced(es, es', k - 1, t);
    }
  }

  lemma {:induction false} HighlightedSingle(es: seq<Entry>, h: nat, k: nat, t: nat)
    requires k <= |es| && h < |es|
    requires forall i :: 0 <= i < |es| ==> (es[i].line == 1.0 <==> i == h)
    ensures Highlighted(es, k, t) == if h < k then [DateRef(h, t)] else []
  {
    if k > 0 {
      HighlightedSingle(es, h, k - 1, t);
    }
  }

  lemma InitialIsValid(n: nat, tail: int)
    requires tail >= 2
    ensures Valid(Initial(n, tail))
    ensures VisibleDates(Initial(n, tail)) == {}
  {
  }

  /** After Delete no date label is visible, none is recorded and every line
      is hidden. */
  lemma ClearAllHidesDates(s: Session)
    requires Valid(s)
    ensures Valid(ClearAll(s))
    ensures VisibleDates(ClearAll(s)) == {}
    ensures forall i :: 0 <= i < |s.entries| ==> ClearAll(s).entries[i].line == 0.0
  {
    var r := ClearAll(s);
    forall i, j | 0 <= i < |r.entries| && 0 <= j < |r.entries[i].dates|
      ensures r.entries[i].dates[j] == 0.0
    {
      assert s.entries[i].dates[j] != 0.0 <==> DateRef(i, j) in s.active;
    }
    assert forall i :: 0 <= i < |r.entries| ==> AlphasOk(r.entries[i], r.lineState, r.textState);
  }

  /** Delete twice is Delete once. */
  lemma ClearAllIdempotent(s: Session)
    requires Shape(s)
    ensures ClearAll(ClearAll(s)) == ClearAll(s)
  {
    var r := ClearAll(s);
    var r2 := ClearAll(r);
    assert r2.entries == r.entries by {
      forall i | 0 <= i < |r.entries| ensures r2.entries[i] == r.entries[i] {
        assert r2.entries[i].dates == r.entries[i].dates;
      }
    }
  }

  lemma ToggleTextValid(s: Session)
    requires Valid(s)
    ensures Valid(ToggleText(s))
  {
    var r := ToggleText(s);
    HighlightedSameForced(s.entries, r.entries, |s.entries|, s.tabindex);
  }

  lemma ToggleLinesValid(s: Session)
    requires Valid(s)
    ensures Valid(ToggleLines(s))
  {
    var r := ToggleLines(s);
    HighlightedSameForced(s.entries, r.entries, |s.entries|, s.tabindex);
  }

  /** Pressing A twice restores the session exactly. */
  lemma ToggleTextTwice(s: Session)
    requires Valid(s)
    ensures ToggleText(ToggleText(s)) == s
  {
    var r := ToggleText(ToggleText(s));
    assert r.entries == s.entries by {
      forall i | 0 <= i < |s.entries| ensures r.entries[i] == s.entries[i] {
        assert AlphasOk(s.entries[i], s.lineState, s.textState);
      }
    }
  }

  /** Every line is at the global line state or forced. */
  predicate LinesAtState(s: Session) {
    forall i :: 0 <= i < |s.entries| ==> s.entries[i].line == s.lineState || s.entries[i].line == 1.0
  }

  /** Pressing T twice restores the session when no line was hidden by
      Delete while lines were on; T itself establishes that condition. */
  lemma ToggleLinesTwice(s: Session)
    requires Valid(s) && LinesAtState(s)
    ensures LinesAtState(ToggleLines(s))
    ensures ToggleLines(ToggleLines(s)) == s
  {
    var r := ToggleLines(ToggleLines(s));
    assert r.entries == s.entries by {
      forall i | 0 <= i < |s.entries| ensures r.entries[i] == s.entries[i] {
      }
    }
  }

  /** Delete while lines are on hides them below the global state, after
      which T, T does not bring them back at once: they go 0 -> 0 -> 0.5. */
  lemma ClearedLineNotRestoredByToggleTwice()
    ensures var s := ClearAll(ToggleLines(Initial(1, 2)));
            && Valid(s) && s.lineState == LineAlpha && s.entries[0].line == 0.0
            && ToggleLines(s).entries[0].line == 0.0
            && ToggleLines(ToggleLines(s)).entries[0].line == LineAlpha
  {
    var s0 := Initial(1, 2);
    ToggleLinesValid(s0);
    ClearAllHidesDates(ToggleLines(s0));
  }

  lemma PickValid(s: Session, p: nat)
    requires Valid(s) && p < |s.entries|
    ensures Valid(Pick(s, p))
    ensures VisibleDates(Pick(s, p)) == {}
  {
    var r := Pick(s, p);
    forall i, j | 0 <= i < |r.entries| && 0 <= j < |r.entries[i].dates|
      ensures r.entries[i].dates[j] == 0.0
    {
      assert s.entries[i].dates[j] != 0.0 <==> DateRef(i, j) in s.active;
    }
    assert AlphasOk(s.entries[p], s.lineState, s.textState);
    assert forall i :: 0 <= i < |r.entries| && i != p ==> SameArtistsAt(r.entries, s.entries, i);
    assert AlphasOk(r.entries[p], r.lineState, r.textState);
  }

  /** Picking twice restores a line or label alpha that sat at one of the
      values a handler gives it: the channel's global alpha or 1. */
  lemma PickAlphaTwice(state: real, default: real, a: real)
    requires default != 1.0
    requires if state == default then a == default || a == 1.0 else a == 0.0 || a == 1.0
    ensures PickAlpha(state, default, PickAlpha(state, default, a)) == a
  {
  }

  /** Picking the same head marker twice gives back its line, markers and
      label and the highlight count, provided its line was at the global
      state or forced. */
  lemma PickTwice(s: Session, p: nat)
    requires Valid(s) && p < |s.entries|
    requires s.entries[p].line == s.lineState || s.entries[p].line == 1.0
    ensures SameArtists(Pick(Pick(s, p), p).entries, s.entries)
    ensures Pick(Pick(s, p), p).highlighted == s.highlighted
  {
    PickValid(s, p);
    assert AlphasOk(s.entries[p], s.lineState, s.textState);
    var r := Pick(Pick(s, p), p);
    assert SameArtistsAt(r.entries, s.entries, p);
  }

  /** A line hidden by Delete while lines are on comes back at 0.5 on the
      first pick and forced on the second, not at its old alpha. */
  lemma PickTwiceOnClearedLine()
    ensures var s := ClearAll(ToggleLines(Initial(1, 2)));
            && s.entries[0].line == 0.0
            && Pick(s, 0).entries[0].line == LineAlpha
            && Pick(Pick(s, 0), 0).entries[0].line == 1.0
  {
  }

  predicate DatesBinary(es: seq<Entry>) {
    forall i, j :: 0 <= i < |es| && 0 <= j < |es[i].dates| ==> es[i].dates[j] == 0.0 || es[i].dates[j] == 1.0
  }

  /** What the loop of `_cycle_dates` has done after its first `k` entries:
      with nothing recorded it reveals the cursor's label of every forced
      entry; otherwise it does nothing until the first forced entry, where it
      moves the cursor one step and from then on reveals the new label. */
  ghost predicate CycleInv(s: Session, step: int, k: nat, m: Session)
    requires Shape(s) && k <= |s.entries|
  {
    var t := s.tabindex;
    var t' := (s.tabindex + step) % s.tail;
    && Shape(m)
    && SameArtists(m.entries, s.entries) && SameGlobals(m, s)
    && DatesMatch(m.entries, m.active) && DatesBinary(m.entries)
    && (s.active == [] ==> m.tabindex == t && m.active == Highlighted(s.entries, k, t))
    && (s.active != [] && Highlighted(s.entries, k, t) == [] ==> m == s)
    && (s.active != [] && Highlighted(s.entries, k, t) != [] ==>
          m.tabindex == t' && m.active == Highlighted(s.entries, k, t'))
  }

  /** Revealing a date label that is not recorded keeps the visible labels
      and the record in step. */
  lemma RevealFresh(m: Session, i: nat, j: nat)
    requires Shape(m) && i < |m.entries| && j < m.tail
    requires DatesMatch(m.entries, m.active) && DatesBinary(m.entries)
    requires DateRef(i, j) !in m.active
    ensures DatesMatch(Reveal(m, i, j).entries, Reveal(m, i, j).active)
    ensures DatesBinary(Reveal(m, i, j).entries)
  {
    var r := Reveal(m, i, j);
    assert r.entries == SetDate(m.entries, i, j, 1.0);
    forall a, b | 0 <= a < |r.entries| && 0 <= b < |r.entries[a].dates|
      ensures (r.entries[a].dates[b] != 0.0 <==> DateRef(a, b) in r.active)
    {
      assert DateRef(a, b) in r.active <==> DateRef(a, b) in m.active || (a == i && b == j);
    }
  }

  lemma CycleEntryNothingRecorded(s: Session, step: int, n: nat, m: Session)
    requires Shape(s) && 0 < n <= |s.entries| && s.active == []
    requires CycleInv(s, step, n - 1, m)
    ensures CycleInv(s, step, n, CycleEntry(m, step, n - 1))
  {
    var k := n - 1;
    var t := s.tabindex;
    if s.entries[k].line == 1.0 {
      HighlightedMember(s.entries, k, t, k, t);
      assert m.entries[k].dates[t] == 0.0;
      assert CycleEntry(m, step, k) == Reveal(m, k, t);
      RevealFresh(m, k, t);
    }
  }

  /** Clearing the recorded labels of a valid session hides every date
      label. */
  lemma ClearedHidesAllDates(s: Session)
    requires Shape(s) && DatesMatch(s.entries, s.active)
    ensures forall i, j :: 0 <= i < |s.entries| && 0 <= j < s.tail ==>
              ClearActiveDateLabels(s).entries[i].dates[j] == 0.0
  {
    var c := ClearActiveDateLabels(s);
    forall i, j | 0 <= i < |c.entries| && 0 <= j < c.tail
      ensures c.entries[i].dates[j] == 0.0
    {
      assert s.entries[i].dates[j] != 0.0 <==> DateRef(i, j) in s.active;
    }
  }

  /** Revealing one date label of a session with none visible or recorded
      leaves exactly that label visible and recorded. */
  lemma RevealOnBlank(c: Session, i: nat, j: nat)
    requires Shape(c) && i < |c.entries| && j < c.tail && c.active == []
    requires forall a, b :: 0 <= a < |c.entries| && 0 <= b < c.tail ==> c.entries[a].dates[b] == 0.0
    ensures Reveal(c, i, j).active == [DateRef(i, j)]
    ensures DatesMatch(Reveal(c, i, j).entries, Reveal(c, i, j).active)
    ensures DatesBinary(Reveal(c, i, j).entries)
  {
    var r := Reveal(c, i, j);
    assert r.entries == SetDate(c.entries, i, j, 1.0);
    forall a, b | 0 <= a < |r.entries| && 0 <= b < |r.entries[a].dates|
      ensures (r.entries[a].dates[b] != 0.0 <==> DateRef(a, b) in r.active)
    {
      assert DateRef(a, b) in r.active <==> a == i && b == j;
    }
  }

  /** One loop step on a forced entry already showing the cursor's label:
      all recorded labels are cleared and the moved cursor's label shown. */
  lemma CycleEntryMovesCursor(s: Session, step: int, k: nat)
    requires Shape(s) && k < |s.entries|
    requires s.entries[k].line == 1.0 && s.entries[k].dates[s.tabindex] != 0.0
    ensures var t' := (s.tabindex + step) % s.tail;
            CycleEntry(s, step, k) == Reveal(ClearActiveDateLabels(s).(tabindex := t'), k, t')
  {
    assert |s.entries[k].dates| == s.tail;
  }

  lemma FirstForcedMoves(s: Session, step: int, n: nat)
    requires Shape(s) && 0 < n <= |s.entries|
    requires s.active == Highlighted(s.entries, |s.entries|, s.tabindex)
    requires DatesMatch(s.entries, s.active)
    requires Highlighted(s.entries, n - 1, s.tabindex) == []
    requires s.entries[n - 1].line == 1.0
    ensures CycleInv(s, step, n, CycleEntry(s, step, n - 1))
  {
    var k := n - 1;
    var t := s.tabindex;
    var t' := (s.tabindex + step) % s.tail;
    HighlightedMember(s.entries, |s.entries|, t, k, t);
    assert s.entries[k].dates[t] != 0.0;
    var c := ClearActiveDateLabels(s);
    CycleEntryMovesCursor(s, step, k);
    ClearedHidesAllDates(s);
    RevealOnBlank(c.(tabindex := t'), k, t');
    HighlightedEmpty(s.entries, k, t, t');
    assert Highlighted(s.entries, n, t') == [DateRef(k, t')];
  }

  lemma CycleEntryFirstForced(s: Session, step: int, n: nat, m: Session)
    requires Valid(s) && 0 < n <= |s.entries| && s.active != []
    requires CycleInv(s, step, n - 1, m)
    requires Highlighted(s.entries, n - 1, s.tabindex) == []
    ensures CycleInv(s, step, n, CycleEntry(m, step, n - 1))
  {
    assert m == s;
    if s.entries[n - 1].line == 1.0 {
      FirstForcedMoves(s, step, n);
    }
  }

  lemma CycleEntryAfterMove(s: Session, step: int, n: nat, m: Session)
    requires Shape(s) && 0 < n <= |s.entries| && s.active != []
    requires CycleInv(s, step, n - 1, m)
    requires Highlighted(s.entries, n - 1, s.tabindex) != []
    ensures CycleInv(s, step, n, CycleEntry(m, step, n - 1))
  {
    var k := n - 1;
    var t' := (s.tabindex + step) % s.tail;
    if s.entries[k].line == 1.0 {
      HighlightedMember(s.entries, k, t', k, t');
      assert m.entries[k].dates[t'] == 0.0;
      assert CycleEntry(m, step, k) == Reveal(m, k, t');
      RevealFresh(m, k, t');
    }
  }

  lemma CycleInvStart(s: Session, step: int)
    requires Valid(s)
    ensures CycleInv(s, step, 0, s)
  {
    assert Highlighted(s.entries, 0, s.tabindex) == [];
    forall i, j | 0 <= i < |s.entries| && 0 <= j < |s.entries[i].dates|
      ensures s.entries[i].dates[j] == 0.0 || s.entries[i].dates[j] == 1.0
    {
      assert AlphasOk(s.entries[i], s.lineState, s.textState);
    }
  }

  lemma CycleEntryInv(s: Session, step: int, k: nat, m: Session)
    requires Valid(s) && 0 < k <= |s.entries|
    requires CycleInv(s, step, k - 1, m)
    ensures CycleInv(s, step, k, CycleEntry(m, step, k - 1))
  {
    if s.active == [] {
      CycleEntryNothingRecorded(s, step, k, m);
    } else if Highlighted(s.entries, k - 1, s.tabindex) == [] {
      CycleEntryFirstForced(s, step, k, m);
    } else {
      CycleEntryAfterMove(s, step, k, m);
    }
  }

  lemma {:induction false} CycleOverInv(s: Session, step: int, k: nat)
    requires Valid(s) && k <= |s.entries|
    ensures CycleInv(s, step, k, CycleOver(s, step, k))
  {
    if k == 0 {
      CycleInvStart(s, step);
    } else {
      CycleOverInv(s, step, k - 1);
      CycleEntryInv(s, step, k, CycleOver(s, step, k - 1));
    }
  }

  /** One arrow-key press, without the loop: when nothing is recorded the
      cursor stays and the cursor's date label of every forced entry
      appears; otherwise the cursor moves one step (left: back, right:
      forward, modulo the tail length) and exactly the new cursor's labels of
      the forced entries are visible. The invariant is kept. */
  lemma CycleDatesEffect(s: Session, key: string)
    requires Valid(s)
    ensures Valid(CycleDates(s, key))
    ensures s.tabbable && s.active == [] ==>
              CycleDates(s, key).tabindex == s.tabindex
              && CycleDates(s, key).active == Highlighted(s.entries, |s.entries|, s.tabindex)
    ensures s.tabbable && s.active != [] ==>
              CycleDates(s, key).tabindex == (s.tabindex + Step(key)) % s.tail
              && CycleDates(s, key).active == Highlighted(s.entries, |s.entries|, CycleDates(s, key).tabindex)
  {
    if s.tabbable {
      var r := CycleDates(s, key);
      CycleOverInv(s, Step(key), |s.entries|);
      HighlightedSameForced(s.entries, r.entries, |s.entries|, r.tabindex);
      assert forall i :: 0 <= i < |r.entries| ==> SameArtistsAt(r.entries, s.entries, i);
      assert forall i :: 0 <= i < |r.entries| ==> AlphasOk(r.entries[i], r.lineState, r.textState) by {
        forall i | 0 <= i < |r.entries| ensures AlphasOk(r.entries[i], r.lineState, r.textState) {
          assert AlphasOk(s.entries[i], s.lineState, s.textState);
        }
      }
    }
  }

  lemma OnEventValid(s: Session, ev: Event)
    requires Valid(s)
    requires ev.PickEntry? ==> ev.entry < |s.entries|
    ensures Valid(OnEvent(s, ev))
  {
    match ev
    case PickEntry(p) => PickValid(s, p);
    case KeyPress(key) =>
      match KeyCommand(key)
      case None =>
      case Some(c) =>
        match c
        case ClearAllCmd => ClearAllHidesDates(s);
        case ToggleTextCmd => ToggleTextValid(s);
        case ToggleLinesCmd => ToggleLinesValid(s);
        case ToggleHelpCmd =>
        case CycleCmd(k) => CycleDatesEffect(s, k);
  }

  lemma {:induction false} RunValid(s: Session, events: seq<Event>)
    requires Valid(s)
    requires EventsFit(events, |s.entries|)
    ensures Valid(Run(s, events))
    decreases |events|
  {
    if events != [] {
      OnEventValid(s, events[0]);
      RunValid(OnEvent(s, events[0]), events[1..]);
    }
  }

  /** Whatever events came before, Delete leaves no date label visible or
      recorded and every tail line hidden. */
  lemma ClearAllAfterAnyEvents(n: nat, tail: int, events: seq<Event>)
    requires tail >= 2
    requires EventsFit(events, n)
    ensures var r := ClearAll(Run(Initial(n, tail), events));
            && VisibleDates(r) == {} && r.active == []
            && forall i :: 0 <= i < |r.entries| ==> r.entries[i].line == 0.0
  {
    InitialIsValid(n, tail);
    RunValid(Initial(n, tail), events);
    ClearAllHidesDates(Run(Initial(n, tail), events));
  }

  /** Delete resets the highlight count only when a date label had been
      revealed: after a pick alone the count stays 1 and arrows stay live. */
  lemma ClearAllKeepsCountWithoutDates()
    ensures var r := ClearAll(Pick(Initial(1, 4), 0));
            && r.highlighted == 1 && r.tabbable && r.entries[0].markers == 0.0
  {
  }

  /** With lines at `LineAlpha`, a pick on a hidden entry shows its markers
      and label and gives its line the global alpha; T then hides the line
      and Delete, which only resets visible lines, leaves the entry alone. */
  lemma PickToggleDelete(s: Session)
    requires Shape(s) && |s.entries| == 1 && s.lineState == LineAlpha && s.textState == 0.0
    requires s.entries[0].line == 0.0 && s.entries[0].markers == 0.0 && s.entries[0].annotation == 0.0
    ensures var r := OnEvent(OnEvent(OnEvent(s, PickEntry(0)), KeyPress("t")), KeyPress("delete"));
            r.entries[0].markers == 1.0 && r.entries[0].annotation == 1.0 && r.entries[0].line == 0.0
  {
    var s3 := OnEvent(s, PickEntry(0));
    assert s3.entries[0].line == LineAlpha && s3.entries[0].markers == 1.0 && s3.entries[0].annotation == 1.0;
    var s4 := OnEvent(s3, KeyPress("t"));
    assert s4 == ToggleLines(s3);
    assert s4.entries[0].line == 0.0;
    assert OnEvent(s4, KeyPress("delete")) == ClearAll(s4);
  }

  /** Delete skips entries whose line is hidden: a label forced by a pick
      survives it when T hid that entry's line first. */
  lemma ClearAllSkipsHiddenLine()
    ensures var events := [KeyPress("t"), KeyPress("delete"), PickEntry(0), KeyPress("t"), KeyPress("delete")];
            var r := Run(Initial(1, 4), events);
            && r.entries[0].markers == 1.0 && r.entries[0].annotation == 1.0 && r.entries[0].line == 0.0
  {
    var events := [KeyPress("t"), KeyPress("delete"), PickEntry(0), KeyPress("t"), KeyPress("delete")];
    var s0 := Initial(1, 4);
    var s2 := OnEvent(OnEvent(s0, events[0]), events[1]);
    InitialIsBlank(1, 4);
    SetupToggleDelete(s0);
    var s3 := OnEvent(s2, events[2]);
    var s4 := OnEvent(s3, events[3]);
    PickToggleDelete(s2);
    assert events[4..][0] == events[4] && events[4..][1..] == [];
    assert events[3..][0] == events[3] && events[3..][1..] == events[4..];
    assert events[2..][0] == events[2] && events[2..][1..] == events[3..];
    assert events[1..][0] == events[1] && events[1..][1..] == events[2..];
    RunFirst(s4, events[4..]);
    RunFirst(s3, events[3..]);
    RunFirst(s2, events[2..]);
    RunFirst(OnEvent(s0, events[0]), events[1..]);
    RunFirst(s0, events);
  }

  /** Running two batches of events is running their concatenation. */
  lemma {:induction false} RunConcat(s: Session, a: seq<Event>, b: seq<Event>)
    requires Shape(s) && EventsFit(a, |s.entries|) && EventsFit(b, |s.entries|)
    ensures EventsFit(a + b, |s.entries|)
    ensures Run(s, a + b) == Run(Run(s, a), b)
    decreases |a|
  {
    if |a| > 0 {
      assert (a + b)[0] == a[0];
      assert (a + b)[1..] == a[1..] + b;
      var s' := OnEvent(s, a[0]);
      RunConcat(s', a[1..], b);
      assert Run(s, a) == Run(s', a[1..]);
      assert Run(s, a + b) == Run(s', (a + b)[1..]);
    } else {
      assert a + b == b;
    }
  }

  /** Once the loop of `_cycle_dates` has passed an entry whose line is
      forced, some date label is recorded. */
  lemma {:induction false} CycleOverRecords(s: Session, step: int, k: nat, i: nat)
    requires Shape(s) && i < k <= |s.entries| && s.entries[i].line == 1.0
    ensures CycleOver(s, step, k).active != []
    decreases k
  {
    var m := CycleOver(s, step, k - 1);
    assert m.entries[i].line == 1.0;
    if i < k - 1 {
      CycleOverRecords(s, step, k - 1, i);
    }
    CycleEntryRecords(m, step, k - 1);
  }

  /** One loop step leaves something recorded if something was, and
      records a label on a forced entry. */
  lemma CycleEntryRecords(m: Session, step: int, i: nat)
    requires Shape(m) && i < |m.entries|
    ensures m.active != [] || m.entries[i].line == 1.0 ==> CycleEntry(m, step, i).active != []
  {
  }

  /** Dispatching a non-empty batch is dispatching its first event, then
      the rest. */
  lemma RunFirst(s: Session, events: seq<Event>)
    requires Shape(s) && |events| > 0
    requires events[0].PickEntry? ==> events[0].entry < |s.entries|
    requires EventsFit(events[1..], |s.entries|)
    ensures EventsFit(events, |s.entries|)
    ensures Run(s, events) == Run(OnEvent(s, events[0]), events[1..])
  {
    forall k | 0 < k < |events| && events[k].PickEntry?
      ensures events[k].entry < |s.entries|
    {
      assert events[k] == events[1..][k - 1];
    }
  }

  /** An arrow press with a forced line records a date label. */
  lemma ArrowRecords(s: Session, key: string, i: nat)
    requires Shape(s) && s.tabbable && i < |s.entries| && s.entries[i].line == 1.0
    requires key == "left" || key == "right"
    ensures var r := OnEvent(s, KeyPress(key));
            r.active != [] && SameArtists(r.entries, s.entries) && SameGlobals(r, s)
  {
    assert OnEvent(s, KeyPress(key)) == CycleDates(s, key);
    CycleOverRecords(s, Step(key), |s.entries|, i);
  }

  /** Delete after a date label was shown zeroes the count but leaves an
      entry with a hidden line alone. */
  lemma DeleteSkipsHiddenLine(s: Session, i: nat)
    requires Shape(s) && s.active != [] && i < |s.entries| && s.entries[i].line == 0.0
    ensures var r := OnEvent(s, KeyPress("delete"));
            r.highlighted == 0 && |r.entries| == |s.entries| && r.entries[i].markers == s.entries[i].markers
  {
    assert OnEvent(s, KeyPress("delete")) == ClearAll(s);
  }

  /** A pick on an entry showing its markers decrements the count. */
  lemma PickDecrements(s: Session, i: nat)
    requires Shape(s) && i < |s.entries| && s.entries[i].markers != 0.0
    ensures OnEvent(s, PickEntry(i)).highlighted == s.highlighted - 1
  {
  }

  // The scenarios below are stated over any blank session rather than the
  // literal `Initial` session, and each handler call gets a lemma of its
  // own: unfolding a literal session through several handlers at once is
  // more than the solver manages in one proof.

  /** Nothing drawn, nothing recorded, both global toggles off. */
  predicate Blank(s: Session) {
    && Shape(s)
    && s.lineState == 0.0 && s.textState == 0.0 && s.active == [] && s.highlighted == 0
    && forall i :: 0 <= i < |s.entries| ==>
         s.entries[i].line == 0.0 && s.entries[i].markers == 0.0 && s.entries[i].annotation == 0.0
  }

  /** The state right after `plot`: blank, with the cursor at 0, nothing
      tabbable, no help overlay and every date label hidden. */
  lemma InitialIsBlank(n: nat, tail: int)
    requires tail >= 2
    ensures Blank(Initial(n, tail))
    ensures var s := Initial(n, tail);
            && s.tail == tail && s.tabindex == 0 && !s.tabbable && !s.helpShown
            && forall i, j :: 0 <= i < n && 0 <= j < tail ==> s.entries[i].dates[j] == 0.0
  {
  }

  /** T then Delete from a blank session: every line and marker is hidden
      while the line state stays at `LineAlpha`. */
  lemma SetupToggleDelete(s0: Session)
    requires Blank(s0)
    ensures var s := OnEvent(OnEvent(s0, KeyPress("t")), KeyPress("delete"));
            && |s.entries| == |s0.entries| && s.lineState == LineAlpha && s.textState == 0.0
            && forall i :: 0 <= i < |s.entries| ==>
                 s.entries[i].line == 0.0 && s.entries[i].markers == 0.0 && s.entries[i].annotation == 0.0
  {
    var s1 := OnEvent(s0, KeyPress("t"));
    assert s1 == ToggleLines(s0);
    assert s1.active == [];
    assert OnEvent(s1, KeyPress("delete")) == ClearAll(s1);
  }

  /** Pick 0 under `LineAlpha` gives its hidden line the global alpha, so
      the next T hides it again while its markers stay shown. */
  lemma SetupPickToggle(s: Session)
    requires Shape(s) && |s.entries| == 2 && s.lineState == LineAlpha
    requires s.entries[0].line == 0.0 && s.entries[0].markers == 0.0
    requires s.entries[1].line == 0.0 && s.entries[1].markers == 0.0
    ensures var r := OnEvent(OnEvent(s, PickEntry(0)), KeyPress("t"));
            && |r.entries| == 2 && r.lineState == 0.0
            && r.entries[0].markers == 1.0 && r.entries[0].line == 0.0
            && r.entries[1].markers == 0.0 && r.entries[1].line == 0.0
  {
    var s3 := OnEvent(s, PickEntry(0));
    assert s3.entries[0].line == LineAlpha;
    assert SameArtistsAt(s3.entries, s.entries, 1);
    assert OnEvent(s3, KeyPress("t")) == ToggleLines(s3);
  }

  /** Pick 1 with lines off forces its line and highlights it. */
  lemma SetupPickForces(s: Session)
    requires Shape(s) && |s.entries| == 2 && s.lineState == 0.0
    requires s.entries[0].markers == 1.0 && s.entries[0].line == 0.0
    requires s.entries[1].markers == 0.0 && s.entries[1].line == 0.0
    ensures var r := OnEvent(s, PickEntry(1));
            && |r.entries| == 2 && r.tabbable
            && r.entries[0].markers == 1.0 && r.entries[0].line == 0.0 && r.entries[1].line == 1.0
  {
    assert SameArtistsAt(OnEvent(s, PickEntry(1)).entries, s.entries, 0);
  }

  /** T, Delete, pick 0, T, pick 1 on two entries: entry 0 keeps its
      markers with its line hidden, entry 1's line is forced. */
  lemma NegativeCountSetup(s0: Session, events: seq<Event>)
    requires Blank(s0) && |s0.entries| == 2
    requires events == [KeyPress("t"), KeyPress("delete"), PickEntry(0), KeyPress("t"), PickEntry(1)]
    ensures EventsFit(events, 2)
    ensures var s := Run(s0, events);
            && |s.entries| == 2 && s.tabbable
            && s.entries[0].markers == 1.0 && s.entries[0].line == 0.0 && s.entries[1].line == 1.0
  {
    var s2 := OnEvent(OnEvent(s0, events[0]), events[1]);
    SetupToggleDelete(s0);
    var s4 := OnEvent(OnEvent(s2, events[2]), events[3]);
    SetupPickToggle(s2);
    SetupPickForces(s4);
    assert events[4..][0] == events[4] && events[4..][1..] == [];
    assert events[3..][0] == events[3] && events[3..][1..] == events[4..];
    assert events[2..][0] == events[2] && events[2..][1..] == events[3..];
    assert events[1..][0] == events[1] && events[1..][1..] == events[2..];
    RunFirst(s4, events[4..]);
    RunFirst(OnEvent(s2, events[2]), events[3..]);
    RunFirst(s2, events[2..]);
    RunFirst(OnEvent(s0, events[0]), events[1..]);
    RunFirst(s0, events);
  }

  /** From there, a right arrow shows a date label, Delete then zeroes the
      count while skipping entry 0, and picking entry 0 decrements it. */
  lemma NegativeCountFinish(s: Session, events: seq<Event>)
    requires Shape(s) && |s.entries| == 2 && s.tabbable
    requires s.entries[0].markers == 1.0 && s.entries[0].line == 0.0 && s.entries[1].line == 1.0
    requires events == [KeyPress("right"), KeyPress("delete"), PickEntry(0)]
    ensures EventsFit(events, 2)
    ensures Run(s, events).highlighted == -1
  {
    var s6 := OnEvent(s, events[0]);
    ArrowRecords(s, "right", 1);
    assert SameArtistsAt(s6.entries, s.entries, 0);
    var s7 := OnEvent(s6, events[1]);
    DeleteSkipsHiddenLine(s6, 0);
    var s8 := OnEvent(s7, events[2]);
    PickDecrements(s7, 0);
    assert events[2..][0] == events[2] && events[2..][1..] == [];
    assert events[1..][0] == events[1] && events[1..][1..] == events[2..];
    RunFirst(s7, events[2..]);
    RunFirst(s6, events[1..]);
    RunFirst(s, events);
  }

  /** The highlight count is not the number of highlighted markers: Delete
      zeroes it after a date label was shown, yet skips a highlighted entry
      whose line T had hidden, so picking that entry again drives the count
      below zero. */
  lemma HighlightCountGoesNegative()
    ensures EventsFit([KeyPress("t"), KeyPress("delete"), PickEntry(0), KeyPress("t"),
                       PickEntry(1), KeyPress("right"), KeyPress("delete"), PickEntry(0)], 2)
    ensures Run(Initial(2, 2), [KeyPress("t"), KeyPress("delete"), PickEntry(0), KeyPress("t"),
                                PickEntry(1), KeyPress("right"), KeyPress("delete"), PickEntry(0)]).highlighted == -1
  {
    var a := [KeyPress("t"), KeyPress("delete"), PickEntry(0), KeyPress("t"), PickEntry(1)];
    var b := [KeyPress("right"), KeyPress("delete"), PickEntry(0)];
    assert a + b == [KeyPress("t"), KeyPress("delete"), PickEntry(0), KeyPress("t"),
                     PickEntry(1), KeyPress("right"), KeyPress("delete"), PickEntry(0)];
    InitialIsBlank(2, 2);
    NegativeCountSetup(Initial(2, 2), a);
    NegativeCountFinish(Run(Initial(2, 2), a), b);
    RunConcat(Initial(2, 2), a, b);
  }
}

=== FILE: quadrant.dfy ===
/** The quadrant classifier `_get_color` and the quadrant-label rules of
    `plot`. The plane is split at RS-ratio 100 (x) and RS-momentum 100 (y);
    a coordinate equal to 100 belongs to the lower / left side. */
module Quadrant {

  datatype Quadrant = Leading | Weakening | Improving | Lagging

  /** The quadrant a point lies in, with both boundaries going low / left. */
  function QuadrantOf(x: real, y: real): Quadrant {
    if x > 100.0 && y > 100.0 then Leading
    else if x > 100.0 then Weakening
    else if y > 100.0 then Improving
    else Lagging
  }

  /** The colour each quadrant's head markers and tails are drawn with. */
  function Color(q: Quadrant): string {
    match q
    case Leading => "#008217"
    case Weakening => "#918000"
    case Improving => "#00749D"
    case Lagging => "#E0002B"
  }

  /** `_get_color`: the colour of the quadrant that holds (x, y). */
  function GetColor(x: real, y: real): (c: string)
    ensures c == Color(QuadrantOf(x, y))
    ensures c == "#008217" <==> x > 100.0 && y > 100.0
    ensures c == "#918000" <==> x > 100.0 && y <= 100.0
    ensures c == "#00749D" <==> x <= 100.0 && y > 100.0
    ensures c == "#E0002B" <==> x <= 100.0 && y <= 100.0
  {
    if x > 100.0 then
      if y > 100.0 then "#008217" else "#918000"
    else
      if y > 100.0 then "#00749D" else "#E0002B"
  }

  /** Two points get the same colour exactly when they lie in the same
      quadrant: the four colours are distinct. */
  lemma SameColorIffSameQuadrant(x: real, y: real, x': real, y': real)
    ensures GetColor(x, y) == GetColor(x', y') <==> QuadrantOf(x, y) == QuadrantOf(x', y')
  {
    var q, q' := QuadrantOf(x, y), QuadrantOf(x', y');
    assert Color(q)[1] != Color(q')[1] || Color(q)[2] != Color(q')[2] || Color(q)[3] != Color(q')[3] || q == q';
  }

  /** Axis extremes over every plotted tail point (before padding). */
  datatype Bounds = Bounds(xMin: real, xMax: real, yMin: real, yMax: real)

  datatype QuadrantLabel = QuadrantLabel(quadrant: Quadrant, x: real, y: real)

  function ImprovingLabel(b: Bounds): QuadrantLabel { QuadrantLabel(Improving, b.xMin - 0.2, b.yMax) }
  function LeadingLabel(b: Bounds): QuadrantLabel { QuadrantLabel(Leading, b.xMax - 0.1, b.yMax) }
  function WeakeningLabel(b: Bounds): QuadrantLabel { QuadrantLabel(Weakening, b.xMax - 0.2, b.yMin) }
  function LaggingLabel(b: Bounds): QuadrantLabel { QuadrantLabel(Lagging, b.xMin - 0.2, b.yMin) }

  /** The quadrant names written on the chart, in drawing order, each shown
      only when the axis extremes reach into that quadrant. */
  function QuadrantLabels(b: Bounds): (r: seq<QuadrantLabel>)
    ensures ImprovingLabel(b) in r <==> b.xMin < 100.0 && b.yMax > 100.0
    ensures LeadingLabel(b) in r <==> b.xMax > 100.0 && b.yMax > 100.0
    ensures WeakeningLabel(b) in r <==> b.xMax > 100.0 && b.yMin < 100.0
    ensures LaggingLabel(b) in r <==> b.xMin < 100.0 && b.yMin < 100.0
    ensures forall l :: l in r ==> l in [ImprovingLabel(b), LeadingLabel(b), WeakeningLabel(b), LaggingLabel(b)]
  {
    (if b.xMin < 100.0 && b.yMax > 100.0 then [ImprovingLabel(b)] else [])
    + (if b.xMax > 100.0 && b.yMax > 100.0 then [LeadingLabel(b)] else [])
    + (if b.xMax > 100.0 && b.yMin < 100.0 then [WeakeningLabel(b)] else [])
    + (if b.xMin < 100.0 && b.yMin < 100.0 then [LaggingLabel(b)] else [])
  }

  predicate Within(b: Bounds, x: real, y: real) {
    b.xMin <= x <= b.xMax && b.yMin <= y <= b.yMax
  }

  /** A point that lies strictly inside a quadrant and within the axis
      extremes makes that quadrant's label appear. */
  lemma OccupiedQuadrantIsLabelled(b: Bounds, x: real, y: real)
    requires Within(b, x, y)
    requires x != 100.0 && y != 100.0
    ensures exists l :: l in QuadrantLabels(b) && l.quadrant == QuadrantOf(x, y)
  {
    match QuadrantOf(x, y)
    case Improving => assert ImprovingLabel(b) in QuadrantLabels(b);
    case Leading => assert LeadingLabel(b) in QuadrantLabels(b);
    case Weakening => assert WeakeningLabel(b) in QuadrantLabels(b);
    case Lagging => assert LaggingLabel(b) in QuadrantLabels(b);
  }

  /** The label rules compare strictly against 100 while the classifier puts
      100 on the low side: a lone head at (101, 100) is coloured as
      Weakening, yet extremes built from it alone show no quadrant label. */
  lemma BoundaryHeadIsNotLabelled()
    ensures GetColor(101.0, 100.0) == Color(Weakening)
    ensures QuadrantLabels(Bounds(101.0, 101.0, 100.0, 100.0)) == []
  {
  }
}

=== FILE: series.dfy ===
/** The series normaliser `_process_ser`: a date-indexed close-price series is
    de-duplicated (first occurrence of a date wins) and, when its dates are not
    already non-decreasing, sorted ascending by date. Dates are modelled as
    integers (day ordinals). */
module Series {

  /** One dated value: a close price, or a value of a series derived from
      closes such as the RS-ratio. */
  datatype Point = Point(date: int, value: real)

  function Dates(s: seq<Point>): set<int> {
    set i | 0 <= i < |s| :: s[i].date
  }

  predicate UniqueDates(s: seq<Point>) {
    forall i, j :: 0 <= i < j < |s| ==> s[i].date != s[j].date
  }

  /** pandas' `is_monotonic_increasing`: non-strict order of the index. */
  predicate NonDecreasing(s: seq<Point>) {
    forall i, j :: 0 <= i < j < |s| ==> s[i].date <= s[j].date
  }

  predicate StrictlyAscending(s: seq<Point>) {
    forall i, j :: 0 <= i < j < |s| ==> s[i].date < s[j].date
  }

  /** `p` is the earliest point of `s` carrying its date. */
  ghost predicate FirstOccurrence(s: seq<Point>, p: Point) {
    exists i :: 0 <= i < |s| && s[i] == p && forall j :: 0 <= j < i ==> s[j].date != p.date
  }

  ghost predicate KeepsFirst(s: seq<Point>, r: seq<Point>) {
    forall k :: 0 <= k < |r| ==> FirstOccurrence(s, r[k])
  }

  /** `x` occurs in `s` before some occurrence of `y`. */
  ghost predicate Before(s: seq<Point>, x: Point, y: Point) {
    exists a, b :: 0 <= a < b < |s| && s[a] == x && s[b] == y
  }

  /** Any two points of `r` occur in `s` in the same order: `r` keeps the
      input order. */
  ghost predicate KeepsOrder(s: seq<Point>, r: seq<Point>) {
    forall i, j :: 0 <= i < j < |r| ==> Before(s, r[i], r[j])
  }

  lemma FirstOccurrenceInPrefix(s: seq<Point>, n: nat, p: Point)
    requires n <= |s|
    requires FirstOccurrence(s[..n], p)
    ensures FirstOccurrence(s, p)
  {
    var i :| 0 <= i < n && s[..n][i] == p && forall j :: 0 <= j < i ==> s[..n][j].date != p.date;
    assert s[i] == p;
    assert forall j :: 0 <= j < i ==> s[j].date != p.date by {
      forall j | 0 <= j < i
        ensures s[j].date != p.date
      {
        assert s[..n][j] == s[j];
      }
    }
  }

  /** Appending a point adds exactly its date. */
  lemma DatesSnoc(s: seq<Point>, x: Point)
    ensures Dates(s + [x]) == Dates(s) + {x.date}
  {
    var r := s + [x];
    forall d | d in Dates(r) ensures d in Dates(s) + {x.date} {
      var i :| 0 <= i < |r| && r[i].date == d;
      if i < |s| { assert s[i] == r[i]; }
    }
    forall d | d in Dates(s) ensures d in Dates(r) {
      var i :| 0 <= i < |s| && s[i].date == d;
      assert r[i] == s[i];
    }
    assert r[|r| - 1].date in Dates(r);
  }

  /** The last point of `s` is kept when no earlier point has its date, and
      the points kept from the prefix stay first occurrences in `s`. */
  lemma KeepFirstStep(s: seq<Point>, rest: seq<Point>)
    requires |s| > 0
    requires UniqueDates(rest) && Dates(rest) == Dates(s[..|s| - 1])
    requires KeepsFirst(s[..|s| - 1], rest)
    requires UniqueDates(s[..|s| - 1]) ==> rest == s[..|s| - 1]
    ensures Dates(s) == Dates(s[..|s| - 1]) + {s[|s| - 1].date}
    ensures KeepsFirst(s, rest)
    ensures s[|s| - 1].date in Dates(rest) ==> !UniqueDates(s)
    ensures s[|s| - 1].date !in Dates(rest) ==>
              && UniqueDates(rest + [s[|s| - 1]])
              && Dates(rest + [s[|s| - 1]]) == Dates(s)
              && KeepsFirst(s, rest + [s[|s| - 1]])
              && (UniqueDates(s) ==> rest + [s[|s| - 1]] == s)
  {
    var init := s[..|s| - 1];
    var last := s[|s| - 1];
    assert s == init + [last];
    DatesSnoc(init, last);
    forall k | 0 <= k < |rest| ensures FirstOccurrence(s, rest[k]) {
      FirstOccurrenceInPrefix(s, |s| - 1, rest[k]);
    }
    if last.date in Dates(rest) {
      var i :| 0 <= i < |init| && init[i].date == last.date;
      assert s[i].date == s[|s| - 1].date;
    } else {
      var r := rest + [last];
      DatesSnoc(rest, last);
      forall i, j | 0 <= i < j < |r| ensures r[i].date != r[j].date {
        if j == |r| - 1 {
          assert r[i] == rest[i];
          assert r[i].date in Dates(rest);
        } else {
          assert r[i] == rest[i] && r[j] == rest[j];
        }
      }
      assert FirstOccurrence(s, last) by {
        forall j | 0 <= j < |s| - 1 ensures s[j].date != last.date {
          assert init[j] == s[j];
          assert init[j].date in Dates(init);
        }
      }
      forall k | 0 <= k < |r| ensures FirstOccurrence(s, r[k]) {
        if k < |rest| { assert r[k] == rest[k]; }
      }
      if UniqueDates(s) {
        forall i, j | 0 <= i < j < |init| ensures init[i].date != init[j].date {
          assert init[i] == s[i] && init[j] == s[j];
        }
      }
    }
  }

  /** The points kept from the prefix stay in order in `s`, and the last
      point of `s` comes after all of them. */
  lemma KeepFirstOrderStep(s: seq<Point>, rest: seq<Point>)
    requires |s| > 0
    requires KeepsFirst(s[..|s| - 1], rest) && KeepsOrder(s[..|s| - 1], rest)
    ensures KeepsOrder(s, rest)
    ensures KeepsOrder(s, rest + [s[|s| - 1]])
  {
    var init := s[..|s| - 1];
    var n := |s| - 1;
    forall i, j | 0 <= i < j < |rest| ensures Before(s, rest[i], rest[j]) {
      assert Before(init, rest[i], rest[j]);
      var a, b :| 0 <= a < b < |init| && init[a] == rest[i] && init[b] == rest[j];
      assert s[a] == init[a] && s[b] == init[b];
    }
    var r := rest + [s[n]];
    forall i, j | 0 <= i < j < |r| ensures Before(s, r[i], r[j]) {
      assert r[i] == rest[i];
      if j < |rest| {
        assert r[j] == rest[j];
        assert Before(s, rest[i], rest[j]);
      } else {
        assert FirstOccurrence(init, rest[i]);
        var a :| 0 <= a < |init| && init[a] == rest[i] && forall j :: 0 <= j < a ==> init[j].date != rest[i].date;
        assert s[a] == r[i] && s[n] == r[j];
      }
    }
  }

  /** `ser.loc[~ser.index.duplicated()]`: drop every point whose date already
      occurred earlier in the series, keeping the rest in input order. */
  function KeepFirst(s: seq<Point>): (r: seq<Point>)
    ensures UniqueDates(r)
    ensures Dates(r) == Dates(s)
    ensures KeepsFirst(s, r)
    ensures KeepsOrder(s, r)
    ensures UniqueDates(s) ==> r == s
    ensures |r| <= |s|
  {
    if s == [] then []
    else
      var rest := KeepFirst(s[..|s| - 1]);
      KeepFirstStep(s, rest);
      KeepFirstOrderStep(s, rest);
      if s[|s| - 1].date in Dates(rest) then rest else rest + [s[|s| - 1]]
  }

  /** Dropping the earliest point of an ascending series keeps it ascending
      and removes exactly that point's date. */
  lemma AscendingTail(s: seq<Point>)
    requires StrictlyAscending(s) && |s| > 0
    ensures StrictlyAscending(s[1..])
    ensures Dates(s[1..]) == Dates(s) - {s[0].date}
    ensures forall d :: d in Dates(s[1..]) ==> s[0].date < d
    ensures forall d :: d in Dates(s) ==> s[0].date <= d
  {
    var tl := s[1..];
    forall d | d in Dates(tl) ensures s[0].date < d {
      var i :| 0 <= i < |tl| && tl[i].date == d;
      assert tl[i] == s[i + 1];
    }
    forall d | d in Dates(s) - {s[0].date} ensures d in Dates(tl) {
      var i :| 0 <= i < |s| && s[i].date == d;
      assert tl[i - 1] == s[i];
    }
    forall d | d in Dates(tl) ensures d in Dates(s) - {s[0].date} {
      var i :| 0 <= i < |tl| && tl[i].date == d;
      assert tl[i] == s[i + 1];
    }
  }

  /** Putting a point in front of an ascending series whose dates are all
      later keeps it ascending. */
  lemma AscendingCons(x: Point, t: seq<Point>)
    requires StrictlyAscending(t)
    requires forall d :: d in Dates(t) ==> x.date < d
    ensures StrictlyAscending([x] + t)
    ensures Dates([x] + t) == Dates(t) + {x.date}
  {
    var r := [x] + t;
    forall d | d in Dates(r) ensures d in Dates(t) + {x.date} {
      var i :| 0 <= i < |r| && r[i].date == d;
      if i > 0 { assert r[i] == t[i - 1]; }
    }
    forall d | d in Dates(t) ensures d in Dates(r) {
      var i :| 0 <= i < |t| && t[i].date == d;
      assert r[i + 1] == t[i];
    }
    assert r[0] == x;
    forall i, j | 0 <= i < j < |r| ensures r[i].date < r[j].date {
      assert r[j] == t[j - 1];
      assert t[j - 1].date in Dates(t);
      if i > 0 { assert r[i] == t[i - 1]; }
    }
  }

  /** Inserts `p` into an ascending series that does not yet hold its date. */
  function Insert(p: Point, s: seq<Point>): (r: seq<Point>)
    requires StrictlyAscending(s)
    requires p.date !in Dates(s)
    ensures StrictlyAscending(r)
    ensures multiset(r) == multiset(s) + multiset{p}
    ensures Dates(r) == Dates(s) + {p.date}
  {
    if s == [] then
      AscendingCons(p, s);
      [p] + s
    else if p.date < s[0].date then
      AscendingTail(s);
      AscendingCons(p, s);
      [p] + s
    else
      AscendingTail(s);
      var rest := Insert(p, s[1..]);
      InsertStep(p, s, rest);
      [s[0]] + rest
  }

  lemma InsertStep(p: Point, s: seq<Point>, rest: seq<Point>)
    requires StrictlyAscending(s) && |s| > 0 && s[0].date < p.date
    requires StrictlyAscending(rest)
    requires multiset(rest) == multiset(s[1..]) + multiset{p}
    requires Dates(rest) == Dates(s[1..]) + {p.date}
    ensures StrictlyAscending([s[0]] + rest)
    ensures multiset([s[0]] + rest) == multiset(s) + multiset{p}
    ensures Dates([s[0]] + rest) == Dates(s) + {p.date}
  {
    AscendingTail(s);
    assert s == [s[0]] + s[1..];
    AscendingCons(s[0], rest);
  }

  lemma DatesOfPermutation(a: seq<Point>, b: seq<Point>)
    requires multiset(a) == multiset(b)
    ensures Dates(a) == Dates(b)
  {
    forall d | d in Dates(a) ensures d in Dates(b) {
      var i :| 0 <= i < |a| && a[i].date == d;
      assert a[i] in multiset(b);
      var j :| 0 <= j < |b| && b[j] == a[i];
    }
    forall d | d in Dates(b) ensures d in Dates(a) {
      var i :| 0 <= i < |b| && b[i].date == d;
      assert b[i] in multiset(a);
      var j :| 0 <= j < |a| && a[j] == b[i];
    }
  }

  /** `sort_index(ascending=True)` on a series whose dates are unique. */
  function SortByDate(s: seq<Point>): (r: seq<Point>)
    requires UniqueDates(s)
    ensures StrictlyAscending(r)
    ensures multiset(r) == multiset(s)
  {
    if s == [] then []
    else
      var tl := s[1..];
      assert s == [s[0]] + tl;
      assert UniqueDates(tl) by {
        forall i, j | 0 <= i < j < |tl| ensures tl[i].date != tl[j].date {
          assert tl[i] == s[i + 1] && tl[j] == s[j + 1];
        }
      }
      var sorted := SortByDate(tl);
      DatesOfPermutation(sorted, tl);
      assert s[0].date !in Dates(tl) by {
        forall i | 0 <= i < |tl| ensures tl[i].date != s[0].date {
          assert s[i + 1] == tl[i];
        }
      }
      Insert(s[0], sorted)
  }

  /** `_process_ser`: the result holds exactly the input's dates, each once,
      in strictly ascending order, each carrying the value of its first
      occurrence in the input; a series that is already strictly ascending
      comes back unchanged. */
  function ProcessSeries(s: seq<Point>): (r: seq<Point>)
    ensures StrictlyAscending(r)
    ensures Dates(r) == Dates(s)
    ensures KeepsFirst(s, r)
    ensures StrictlyAscending(s) ==> r == s
  {
    var d := if !UniqueDates(s) then KeepFirst(s) else s;
    assert d == KeepFirst(s);
    if NonDecreasing(d) then
      d
    else
      var r := SortByDate(d);
      DatesOfPermutation(r, d);
      assert KeepsFirst(s, r) by {
        forall k | 0 <= k < |r| ensures FirstOccurrence(s, r[k]) {
          assert r[k] in multiset(d);
          var m :| 0 <= m < |d| && d[m] == r[k];
        }
      }
      r
  }

  lemma ProcessSeriesIdempotent(s: seq<Point>)
    ensures ProcessSeries(ProcessSeries(s)) == ProcessSeries(s)
  {
  }

  lemma NoDatesMeansEmpty(s: seq<Point>)
    ensures Dates(s) == {} <==> s == []
  {
    if s != [] {
      assert s[0].date in Dates(s);
    }
  }

  /** Two points that are both the first occurrence of the same date in `s`
      are the same point. */
  lemma FirstOccurrenceUnique(s: seq<Point>, p: Point, q: Point)
    requires FirstOccurrence(s, p) && FirstOccurrence(s, q)
    requires p.date == q.date
    ensures p == q
  {
    var i :| 0 <= i < |s| && s[i] == p && forall j :: 0 <= j < i ==> s[j].date != p.date;
    var k :| 0 <= k < |s| && s[k] == q && forall j :: 0 <= j < k ==> s[j].date != q.date;
    assert i == k;
  }

  /** The contract of `ProcessSeries` determines its result: any strictly
      ascending series over the same dates whose points are all first
      occurrences in `s` is equal to it. */
  lemma {:induction false} ProcessSeriesContractIsComplete(s: seq<Point>, a: seq<Point>, b: seq<Point>)
    requires StrictlyAscending(a) && StrictlyAscending(b)
    requires Dates(a) == Dates(b)
    requires KeepsFirst(s, a) && KeepsFirst(s, b)
    ensures a == b
    decreases |a|
  {
    if a == [] {
      NoDatesMeansEmpty(b);
    } else {
      assert a[0].date in Dates(a);
      NoDatesMeansEmpty(b);
      assert b[0].date in Dates(b);
      AscendingTail(a);
      AscendingTail(b);
      assert a[0].date == b[0].date by {
        assert a[0].date <= b[0].date;
        assert b[0].date <= a[0].date;
      }
      FirstOccurrenceUnique(s, a[0], b[0]);
      var a', b' := a[1..], b[1..];
      assert KeepsFirst(s, a') by {
        forall x | 0 <= x < |a'| ensures FirstOccurrence(s, a'[x]) {
          assert a'[x] == a[x + 1];
        }
      }
      assert KeepsFirst(s, b') by {
        forall x | 0 <= x < |b'| ensures FirstOccurrence(s, b'[x]) {
          assert b'[x] == b[x + 1];
        }
      }
      ProcessSeriesContractIsComplete(s, a', b');
      assert a == [a[0]] + a' && b == [b[0]] + b';
    }
  }
}

=== FILE: settings.dfy ===
/** The arithmetic of `RRG.__init__`: benchmark selection, the tail clamp,
    the WINDOW / PERIOD defaults and the minimum data length requested from
    the loader. */
module Settings {
  import opened Wrappers

  /** The failures this core raises (Python `ValueError`, `KeyError`,
      `IndexError`). `NoBenchmark` fails the constructor; every other one
      aborts the whole plot. */
  datatype Error =
    | NoBenchmark
    | BenchmarkUnavailable
    | BenchmarkTooShort
    | MalformedEntry(entry: string)
    | BaseDateMissing(date: int)
    | PeriodOutOfRange(period: int)

  /** The recognised keys of the configuration mapping; a key that is absent
      is `None`. Dates are day ordinals. */
  datatype Config = Config(
    benchmark: Option<string>,
    window: Option<int>,
    period: Option<int>,
    baseDate: Option<int>)

  datatype Settings = Settings(
    benchmark: string,
    tail: int,
    window: int,
    period: int,
    baseDate: Option<int>,
    minimumLength: int)

  const DefaultWindow: int := 14
  const DefaultPeriod: int := 52
  const DefaultTail: int := 4

  /** Python truthiness of an optional string: `None` and `""` are false. */
  predicate Truthy(s: Option<string>) {
    s.Some? && s.value != ""
  }

  /** The `-b` argument wins over `BENCHMARK` in the configuration; with
      neither set the constructor raises. */
  function SelectBenchmark(argument: Option<string>, configured: Option<string>): (r: Result<string, Error>)
    ensures r.Success? <==> Truthy(argument) || Truthy(configured)
    ensures r.Failure? ==> r.error == NoBenchmark
    ensures Truthy(argument) ==> r == Success(argument.value)
    ensures !Truthy(argument) && Truthy(configured) ==> r == Success(configured.value)
    ensures r.Success? ==> r.value != ""
  {
    if Truthy(argument) then Success(argument.value)
    else if Truthy(configured) then Success(configured.value)
    else Failure(NoBenchmark)
  }

  function Max(a: int, b: int): (m: int)
    ensures m >= a && m >= b
    ensures m == a || m == b
  {
    if a >= b then a else b
  }

  /** The tail is never shorter than two points. */
  function ClampTail(tailCount: int): (t: int)
    ensures t >= 2 && t >= tailCount
    ensures t == 2 || t == tailCount
  {
    Max(2, tailCount)
  }

  /** Two rolling windows (ratio and momentum), the momentum base period and
      the tail. */
  function MinimumDataLength(window: int, period: int, tail: int): (n: int)
    ensures n - tail - 2 * window >= window && n - tail - 2 * window >= period
    ensures n - tail - 2 * window == window || n - tail - 2 * window == period
  {
    window * 2 + Max(window, period) + tail
  }

  /** `RRG.__init__` up to the loader construction. */
  function MakeSettings(config: Config, tailCount: int, benchmark: Option<string>): (r: Result<Settings, Error>)
    ensures r.Success? <==> Truthy(benchmark) || Truthy(config.benchmark)
    ensures r.Failure? ==> r.error == NoBenchmark
    ensures r.Success? ==> r.value.benchmark == SelectBenchmark(benchmark, config.benchmark).value
    ensures r.Success? ==> r.value.tail == ClampTail(tailCount)
    ensures r.Success? ==> r.value.window == config.window.GetOr(DefaultWindow)
    ensures r.Success? ==> r.value.period == config.period.GetOr(DefaultPeriod)
    ensures r.Success? ==> r.value.baseDate == config.baseDate
    ensures r.Success? ==> r.value.minimumLength == MinimumDataLength(r.value.window, r.value.period, r.value.tail)
  {
    var name :- SelectBenchmark(benchmark, config.benchmark);
    var tail := ClampTail(tailCount);
    var window := config.window.GetOr(DefaultWindow);
    var period := config.period.GetOr(DefaultPeriod);
    Success(Settings(name, tail, window, period, config.baseDate, MinimumDataLength(window, period, tail)))
  }

  /** With WINDOW and PERIOD left at their defaults and the default tail of
      four, the loader is asked for 14 * 2 + 52 + 4 = 84 observations. */
  lemma DefaultMinimumLength(name: string)
    requires name != ""
    ensures MakeSettings(Config(Some(name), None, None, None), DefaultTail, None)
         == Success(Settings(name, 4, 14, 52, None, 84))
  {
    var config := Config(Some(name), None, None, None);
    assert SelectBenchmark(None, config.benchmark) == Success(name);
    assert ClampTail(DefaultTail) == 4;
    assert MinimumDataLength(14, 52, 4) == 84;
  }
}

=== FILE: tickers.dfy ===
/** One watchlist entry of `RRG.plot`: the `TICKER,Short` parsing, the
    momentum base of `_calculate_momentum`, and the plotted tail (head
    marker, tail markers, line path and date labels). */
module Tickers {
  import opened Wrappers
  import opened Settings
  import opened Series
  import opened Quadrant

  /** A plotted point: RS-ratio on x, RS-momentum on y. */
  datatype Coord = Coord(x: real, y: real)

  /** The tail line: the raw tail points, or a spline through them. */
  datatype Path = Raw(points: seq<Coord>) | Smoothed(through: seq<Coord>)

  /** The date text next to one tail point; the newest date is bold. */
  datatype DateLabel = DateLabel(date: int, at: Coord, bold: bool)

  /** The artists kept for one plotted symbol. `id` is its position in the
      watchlist (the marker url is `s<id>`). */
  datatype PlotEntry = PlotEntry(
    id: nat,
    ticker: string,
    name: string,
    color: string,
    head: Coord,
    history: seq<Coord>,
    path: Path,
    dateLabels: seq<DateLabel>)

  // ---------------------------------------------------------------------
  // `TICKER,Short`

  function CommaCount(s: string): nat {
    multiset(s)[',']
  }

  /** The position of the first comma. */
  function FirstComma(s: string): (i: nat)
    requires ',' in s
    ensures i < |s| && s[i] == ','
    ensures forall j :: 0 <= j < i ==> s[j] != ','
  {
    if s[0] == ',' then 0
    else
      var i := FirstComma(s[1..]);
      assert forall j :: 1 <= j < i + 1 ==> s[j] == s[1..][j - 1];
      i + 1
  }

  lemma CountSplit(s: string, i: nat)
    requires i < |s| && s[i] == ','
    requires forall j :: 0 <= j < i ==> s[j] != ','
    ensures CommaCount(s) == 1 + CommaCount(s[i + 1..])
  {
    assert s == s[..i] + [s[i]] + s[i + 1..];
    assert ',' !in s[..i];
    assert multiset(s) == multiset(s[..i]) + multiset{','} + multiset(s[i + 1..]);
  }

  lemma NoCommaCount(s: string)
    ensures ',' !in s <==> CommaCount(s) == 0
  {
  }

  /** A watchlist entry is `TICKER` or `TICKER,Short`: a single comma
      separates the symbol from its display name, a second comma makes the
      tuple unpacking fail, and without a comma the symbol names itself. */
  function ParseEntry(text: string): (r: Result<(string, string), Error>)
    ensures r.Failure? <==> CommaCount(text) >= 2
    ensures r.Failure? ==> r.error == MalformedEntry(text)
    ensures ',' !in text ==> r == Success((text, text))
    ensures r.Success? && ',' in text ==>
              && ',' !in r.value.0 && ',' !in r.value.1
              && r.value.0 + [','] + r.value.1 == text
  {
    if ',' !in text then Success((text, text))
    else
      var i := FirstComma(text);
      var rest := text[i + 1..];
      CountSplit(text, i);
      NoCommaCount(rest);
      if ',' in rest then Failure(MalformedEntry(text))
      else
        assert text[..i] + [','] + rest == text;
        Success((text[..i], rest))
  }

  /** Joining a symbol and a display name that hold no comma, and parsing
      the result, gives both back. */
  lemma ParseEntryRoundTrip(ticker: string, name: string)
    requires ',' !in ticker && ',' !in name
    ensures ParseEntry(ticker + [','] + name) == Success((ticker, name))
  {
    var text := ticker + [','] + name;
    assert text[|ticker|] == ',';
    forall j | 0 <= j < |ticker|
      ensures text[j] != ','
    {
      assert text[j] == ticker[j];
    }
    var i := FirstComma(text);
    assert i == |ticker|;
    assert text[..i] == ticker && text[i + 1..] == name;
  }

  /** Two commas always fail, wherever they sit. */
  lemma ThreeFieldsAreRejected(a: string, b: string, c: string)
    ensures ParseEntry(a + [','] + b + [','] + c).Failure?
  {
    var text := a + [','] + b + [','] + c;
    assert multiset(text)[','] >= 2 by {
      assert multiset(text) == multiset(a) + multiset{','} + multiset(b) + multiset{','} + multiset(c);
    }
  }

  // ---------------------------------------------------------------------
  // Momentum base

  /** The first value recorded on `date`, if any (`Series.at`). */
  function ValueOn(s: seq<Point>, date: int): (r: Option<real>)
    ensures r.None? <==> date !in Dates(s)
    ensures r.Some? ==> exists i :: 0 <= i < |s| && s[i].date == date && s[i].value == r.value
    ensures |s| > 0 && s[0].date == date ==> r == Some(s[0].value)
  {
    if |s| == 0 then None
    else if s[0].date == date then Some(s[0].value)
    else
      var r := ValueOn(s[1..], date);
      assert Dates(s) == {s[0].date} + Dates(s[1..]) by {
        forall d | d in Dates(s) ensures d in {s[0].date} + Dates(s[1..]) {
          var i :| 0 <= i < |s| && s[i].date == d;
          if i > 0 { assert s[1..][i - 1].date == d; }
        }
      }
      if r.Some? then
        var j :| 0 <= j < |s[1..]| && s[1..][j].date == date && s[1..][j].value == r.value;
        assert s[j + 1] == s[1..][j];
        r
      else r
  }

  /** Python's `iloc[k]`: negative positions count from the end. */
  function PythonIndex(n: nat, k: int): (r: Option<nat>)
    ensures r.Some? ==> r.value < n
    ensures 0 <= k < n ==> r == Some(k)
    ensures -(n as int) <= k < 0 ==> r == Some(n + k)
    ensures r.None? <==> k >= n || k < -(n as int)
  {
    var i := if k < 0 then n + k else k;
    if 0 <= i < n then Some(i) else None
  }

  /** The RS-ratio value the rate of change is measured against: the value
      at BASE_DATE when that is set, otherwise the `period`-th value from
      the end. A missing date or an out-of-range position is an uncaught
      error. */
  function MomentumBase(ratio: seq<Point>, baseDate: Option<int>, period: int): (r: Result<real, Error>)
    ensures baseDate.Some? ==>
              (r.Failure? <==> baseDate.value !in Dates(ratio))
              && (r.Failure? ==> r.error == BaseDateMissing(baseDate.value))
              && (r.Success? ==> exists i :: 0 <= i < |ratio| && ratio[i] == Point(baseDate.value, r.value))
    ensures baseDate.None? ==>
              (r.Failure? <==> period > |ratio| || period <= -|ratio| || (period == 0 && |ratio| == 0))
              && (r.Failure? ==> r.error == PeriodOutOfRange(period))
    ensures baseDate.None? && 1 <= period <= |ratio| ==> r == Success(ratio[|ratio| - period].value)
    ensures baseDate.None? && period == 0 && |ratio| > 0 ==> r == Success(ratio[0].value)
  {
    match baseDate
    case Some(d) =>
      var v := ValueOn(ratio, d);
      if v.None? then Failure(BaseDateMissing(d))
      else
        var i :| 0 <= i < |ratio| && ratio[i].date == d && ratio[i].value == v.value;
        assert ratio[i] == Point(d, v.value);
        Success(v.value)
    case None =>
      var k := PythonIndex(|ratio|, -period);
      if k.None? then Failure(PeriodOutOfRange(period)) else Success(ratio[k.value].value)
  }

  /** On a ratio series without repeated dates, BASE_DATE selects the
      value recorded on that date, whatever the period. */
  lemma BaseDateSelectsItsValue(ratio: seq<Point>, i: nat, period: int)
    requires UniqueDates(ratio) && i < |ratio|
    ensures MomentumBase(ratio, Some(ratio[i].date), period) == Success(ratio[i].value)
  {
    var r := MomentumBase(ratio, Some(ratio[i].date), period);
    assert ratio[i].date in Dates(ratio);
    var j :| 0 <= j < |ratio| && ratio[j] == Point(ratio[i].date, r.value);
    assert j == i;
  }

  /** Without BASE_DATE, a ratio series shorter than the period aborts the
      plot rather than skipping the symbol. */
  lemma ShortRatioAbortsWithoutBaseDate(ratio: seq<Point>, period: int)
    requires |ratio| < period
    ensures MomentumBase(ratio, None, period) == Failure(PeriodOutOfRange(period))
  {
  }

  // ---------------------------------------------------------------------
  // The plotted tail

  /** The last `tail` ratio values paired, position by position, with the
      last `tail` momentum values. */
  function TailPoints(ratio: seq<Point>, momentum: seq<real>, tail: nat): (pts: seq<Coord>)
    requires tail <= |ratio| && tail <= |momentum|
    ensures |pts| == tail
    ensures forall k :: 0 <= k < tail ==>
              pts[k] == Coord(ratio[|ratio| - tail + k].value, momentum[|momentum| - tail + k])
    ensures tail > 0 ==> pts[tail - 1] == Coord(ratio[|ratio| - 1].value, momentum[|momentum| - 1])
  {
    seq(tail, k requires 0 <= k < tail => Coord(ratio[|ratio| - tail + k].value, momentum[|momentum| - tail + k]))
  }

  /** Whether the spline is drawn: it needs scipy and more than two points. */
  function LinePath(pts: seq<Coord>, smoothing: bool, tail: int): (p: Path)
    ensures p.Smoothed? <==> smoothing && tail > 2
    ensures p.Raw? ==> p.points == pts
    ensures p.Smoothed? ==> p.through == pts
  {
    if smoothing && tail > 2 then Smoothed(pts) else Raw(pts)
  }

  /** One date label per tail point, at that point; only the newest date
      of the series is bold. */
  function DateLabels(ratio: seq<Point>, pts: seq<Coord>): (labels: seq<DateLabel>)
    requires 0 < |pts| <= |ratio|
    ensures |labels| == |pts|
    ensures forall k :: 0 <= k < |pts| ==>
              && labels[k].date == ratio[|ratio| - |pts| + k].date
              && labels[k].at == pts[k]
              && (labels[k].bold <==> ratio[|ratio| - |pts| + k].date == ratio[|ratio| - 1].date)
  {
    var n := |pts|;
    var last := ratio[|ratio| - 1].date;
    seq(n, k requires 0 <= k < n => DateLabel(ratio[|ratio| - n + k].date, pts[k], ratio[|ratio| - n + k].date == last))
  }

  /** The artists of one symbol whose series hold at least `tail` values:
      the head marker at the newest point, tail markers at the `tail - 1`
      points before it, the line through all of them, and one date label
      per tail point with only the newest date in bold. */
  function MakeEntry(id: nat, ticker: string, name: string, ratio: seq<Point>, momentum: seq<real>,
                     tail: int, smoothing: bool): (e: PlotEntry)
    requires tail >= 2 && |ratio| >= tail && |momentum| >= tail
    ensures e.id == id && e.ticker == ticker && e.name == name
    ensures e.head == Coord(ratio[|ratio| - 1].value, momentum[|momentum| - 1])
    ensures |e.history| == tail - 1
    ensures forall k :: 0 <= k < tail - 1 ==>
              e.history[k] == Coord(ratio[|ratio| - tail + k].value, momentum[|momentum| - tail + k])
    ensures e.color == Color(QuadrantOf(e.head.x, e.head.y))
    ensures e.path == LinePath(e.history + [e.head], smoothing, tail)
    ensures |e.dateLabels| == tail
    ensures forall k :: 0 <= k < tail ==>
              && e.dateLabels[k].date == ratio[|ratio| - tail + k].date
              && e.dateLabels[k].at == (e.history + [e.head])[k]
              && (e.dateLabels[k].bold <==> ratio[|ratio| - tail + k].date == ratio[|ratio| - 1].date)
  {
    var pts := TailPoints(ratio, momentum, tail);
    var head := pts[tail - 1];
    var history := pts[..tail - 1];
    assert history + [head] == pts;
    PlotEntry(id, ticker, name, GetColor(head.x, head.y), head, history, LinePath(pts, smoothing, tail),
              DateLabels(ratio, pts))
  }

  /** On an ascending ratio series only the last date label is bold. */
  lemma OnlyLastLabelIsBold(ratio: seq<Point>, pts: seq<Coord>)
    requires 0 < |pts| <= |ratio|
    requires StrictlyAscending(ratio)
    ensures forall k :: 0 <= k < |pts| ==> (DateLabels(ratio, pts)[k].bold <==> k == |pts| - 1)
  {
    var labels := DateLabels(ratio, pts);
    forall k | 0 <= k < |pts|
      ensures labels[k].bold <==> k == |pts| - 1
    {
      var i := |ratio| - |pts| + k;
      assert labels[k].bold <==> ratio[i].date == ratio[|ratio| - 1].date;
      if k < |pts| - 1 {
        assert ratio[i].date < ratio[|ratio| - 1].date;
      }
    }
  }

  /** On an ascending ratio series exactly one date label is bold: the
      head's. */
  lemma OnlyHeadDateIsBold(id: nat, ticker: string, name: string, ratio: seq<Point>, momentum: seq<real>,
                           tail: int, smoothing: bool)
    requires tail >= 2 && |ratio| >= tail && |momentum| >= tail
    requires StrictlyAscending(ratio)
    ensures var e := MakeEntry(id, ticker, name, ratio, momentum, tail, smoothing);
            forall k :: 0 <= k < tail ==> (e.dateLabels[k].bold <==> k == tail - 1)
  {
    var pts := TailPoints(ratio, momentum, tail);
    assert MakeEntry(id, ticker, name, ratio, momentum, tail, smoothing).dateLabels == DateLabels(ratio, pts);
    OnlyLastLabelIsBold(ratio, pts);
  }
}

=== FILE: wrappers.dfy ===
/** Failure-compatible Option and Result types used to model Python's
    `None` values and raised exceptions. */
module Wrappers {

  datatype Option<+T> = None | Some(value: T) {

    predicate IsFailure() {
      None?
    }

    function PropagateFailure<U>(): Option<U>
      requires None?
    {
      None
    }

    function Extract(): T
      requires Some?
    {
      value
    }

    function GetOr(default: T): T {
      match this
      case Some(v) => v
      case None => default
    }
  }

  datatype Result<+R, +E> = Success(value: R) | Failure(error: E) {

    predicate IsFailure() {
      Failure?
    }

    function PropagateFailure<U>(): Result<U, E>
      requires Failure?
    {
      Failure(error)
    }

    function Extract(): R
      requires Success?
    {
      value
    }
  }
}
